=== FILE: README.md ===
# Meal-planning tools: a Dafny model of the deterministic core

MealMind plans a household's week of meals. Its language-model agents call
plain tools, and those tools hold every computed answer. This project models
those tools:

- the household profile store: households, their members, and the constraints
  gathered from the members;
- nutrition lookup and per-serving recipe nutrition from a ten-row table;
- health guidelines per condition, and the allergen check of a recipe;
- ingredient cost estimates, and the cost of a whole plan;
- cooking-time statistics and ingredient reuse counts;
- the shopping list that merges a plan's ingredients by lower-cased name;
- the planning utilities: schedule optimisation with a score and suggestions,
  the grocery list with a budget check and tips, and the stand-alone score;
- the memory bank: per-member favourites, dislikes and preferences, and a
  household's meal-plan history capped at ten;
- the session manager: sessions, their messages and their context.

Each store is an immutable value. An operation takes the store and returns
the new store; the profile store returns it together with the tool's result.

A tool that parses a JSON argument takes a `Json<T>`, which is either
`Parsed(value)` or `Malformed`. `Malformed` gives `Err(InvalidJson)`. The
parser is assumed to apply the source's defaults for missing fields:
- an empty name;
- an amount of 0;
- 0 cooking minutes.

A missing unit and a missing `servings` stay `None`, and the tools supply
`"grams"` and 4 themselves, as the source does. Where the source raises an
uncaught division by zero, the model returns `Err(DivisionByZero)`. That
happens for a recipe with 0 servings, and in `optimize_schedule` when the
average exceeds a `cooking_time_max` of 0.

Default arguments are Dafny default parameters with the source's values:
- `amount_grams` 100.0 for a nutrition lookup;
- `cooking_time_max` 45 for `optimize_schedule` and for a new household;
- `budget` 150.0 for the grocery list, and a weekly budget of 150.0 for a new household;
- `limit` 5 for the meal history, and 10 for a session's messages.

Module layout:
- `Outcomes`: `Option`, `Result` and `Json`.
- `Text`: ASCII `lower`, `title`, `strip`, `split` and substring search, plus
  the comma-list idiom `[x.strip() for x in s.split(",") if x.strip()]`.
- `Numbers`: `round` to one or two places, sums, max and min, clamping.
- `Slices`: the `xs[-limit:]` tail.
- `Plans`: days, meals, ingredient lines and recipes, and the plan's lines in
  visiting order, with per-name counts, amounts and units.
- `Sorting`: `sorted` by a string key, and `Map`.
- `Costs`, `Nutrition`, `Health`, `Schedule` and `Shopping`: the tool
  functions.
- `PlanningUtils`: the utilities.
- `Profiles`, `Memory` and `Sessions`: the stores.

The shopping merge is a fold over the plan's lines, like the source's dict
loop. It is proved equal, name by name, to a definition without the fold:
- the total is the sum of the name's amounts;
- the use count is the number of its lines;
- the unit is that of its first line (the tool set) or of its last line
  (the grocery utility).

The tool set appears twice in the source: once in
`tools/complete_adk_tools.py` and again in smaller per-topic modules. Where
the two copies compute the same thing, one model serves both. For example,
`Costs.CalculateMealPlanCost` also models `calculate_meal_plan_cost` in
`tools/cost_estimator.py`. Where they
differ, both are modelled:
- the health guideline tables and their "no guidelines" texts
  (`Health.ToolHealthGuidelines`);
- the grocery module's shopping list, which has no `used_in`
  (`Shopping.GroceryAggregateForShopping`).

## Model

| member | source | states |
|---|---|---|
| Costs.PriceNonNegative | tools/complete_adk_tools.py:25-29 | every price the cost table holds, and the 0.50 fallback, is non-negative |
| Costs.ChargeMonotone | tools/complete_adk_tools.py:299-304 | a larger amount never costs less at the same price, before or after rounding to cents, and 0 grams cost 0 |
| Costs.ChargeNonNegative | tools/complete_adk_tools.py:299-304 | a non-negative amount at a non-negative price has a non-negative cost |
| Costs.EstimateIngredientCost | tools/complete_adk_tools.py:285-314 | the ingredient and amount are echoed; the estimate is marked estimated exactly when the lower-cased name is not in the cost table; a non-negative amount costs a non-negative sum |
| Costs.EstimateUsesTableOrFallback | tools/complete_adk_tools.py:297-313 | a known name is charged its table price per 100 g, an unknown one 0.50 per 100 g, rounded to cents |
| Costs.EstimateIgnoresCase | tools/complete_adk_tools.py:295-297 | names that differ only in letter case get the same cost and the same estimated flag |
| Costs.EstimateOfNothing | tools/cost_estimator.py:12-22 | zero grams cost nothing, whether the name is known or not |
| Costs.EstimateMonotone | tools/complete_adk_tools.py:297-313 | more grams of the same ingredient never cost less |
| Costs.CalculateMealPlanCost | tools/complete_adk_tools.py:317-351 | malformed input is an error; there is one daily cost per day, the day's sum of line costs rounded to cents; the total is the sum of every line's cost over the whole plan, rounded to cents; the average is that sum divided by the number of days, rounded to cents; an empty plan costs 0 with average 0 |
| Costs.PlanCostIsSumOfLineCosts | tools/complete_adk_tools.py:334-345 | adding up the days' costs equals adding up the cost of every ingredient line of the plan |
| Health.GuidelineFrom | tools/complete_adk_tools.py:243-248 | the lists come from the table exactly when the lower-cased condition is a key; otherwise both lists are empty and the note names the condition as given |
| Health.GetHealthGuidelines | tools/complete_adk_tools.py:234-248 | a known condition gets its table entry without a note; an unknown one gets empty lists and "No specific guidelines for" the condition |
| Health.ToolHealthGuidelines | tools/health_guidelines.py:5-13 | the same lookup over the shorter table, with "No guidelines for" the condition |
| Health.GuidelinesIgnoreCase | tools/complete_adk_tools.py:243-244 | conditions that differ only in case get the same lists, in both tables |
| Health.ToolListsArePrefixes | tools/health_guidelines.py:5-9 | both tables know the same conditions, and each list of the shorter table is a leading part of the longer table's list |
| Health.CheckAllergensInRecipe | tools/complete_adk_tools.py:251-278 | malformed input is an error; the reported texts are the allergen helper's report over the recipe's ingredients and the allergy terms; a recipe is flagged exactly when some hit is reported; a recipe without ingredients is never flagged |
| Health.AllergenReportSpec | tools/complete_adk_tools.py:266-278 | the tool's report holds exactly the texts "term in name" for each ingredient and term where the term occurs in the lower-cased name, and lists the first ingredient's hits, in allergy-list order, before the rest of the recipe's |
| Health.MatchesInSpec | tools/complete_adk_tools.py:271-273 | one ingredient reports "term in name" exactly for the terms found in its lower-cased name |
| Health.FoundAllergensSpec | tools/complete_adk_tools.py:269-273 | the report holds exactly the texts "term in name" for each ingredient and term where the term occurs in the lower-cased name |
| Health.FoundAllergensAppend | tools/complete_adk_tools.py:269-273 | hits are reported ingredient by ingredient: the report for two lists of ingredients is the report for the first followed by the report for the second |
| Health.HasAllergensIffSomeTermOccurs | tools/complete_adk_tools.py:266-278 | has_allergens holds exactly when some allergy term occurs in some ingredient's lower-cased name |
| Health.AllergyTermsAreLowerAndNonEmpty | tools/complete_adk_tools.py:266 | every allergy term is non-empty and lower-case, and an empty allergy text gives no terms |
| Memory.EmptyBankValid | memory/memory_bank.py:10-20 | a new memory bank satisfies the bank invariant |
| Memory.AddMemberFavorite | memory/memory_bank.py:26-40 | afterwards the member has a favourite of that name; if one was there nothing changes, otherwise the dish is appended marked with the member; no other member's favourites or other store change |
| Memory.AddMemberDislike | memory/memory_bank.py:56-66 | afterwards the member dislikes the ingredient ignoring case; if it was there ignoring case nothing changes, otherwise it is appended as spelled; no other member's list or other store changes |
| Memory.GetHouseholdDislikes | memory/memory_bank.py:78-84 | an ingredient is in the household's dislikes exactly when some member of that household dislikes it; an unknown household has none |
| Memory.GetMemberFavorites | memory/memory_bank.py:42-46 | the member's stored favourites when household and member are known, and empty otherwise |
| Memory.GetAllMemberFavorites | memory/memory_bank.py:48-50 | the household's per-member favourites when the household is known, and empty otherwise |
| Memory.GetMemberDislikes | memory/memory_bank.py:68-72 | the member's stored dislikes when household and member are known, and empty otherwise |
| Memory.GetAllMemberDislikes | memory/memory_bank.py:74-76 | the household's per-member dislikes when the household is known, and empty otherwise |
| Memory.GetMemberPreferences | memory/memory_bank.py:100-104 | the member's stored preferences when household and member are known, and empty otherwise |
| Memory.GetAllMemberPreferences | memory/memory_bank.py:106-108 | the household's per-member preferences when the household is known, and empty otherwise |
| Memory.MemberGettersAgree | memory/memory_bank.py:42-108 | each per-member getter returns the member's entry of the all-members map, or empty when the member has none |
| Memory.UnknownHouseholdIsEmpty | memory/memory_bank.py:10-131 | a fresh bank returns empty favourites, dislikes, preferences and history for any household and member |
| Memory.AddedDislikeIsHouseholdDislike | memory/memory_bank.py:56-84 | after adding a dislike, the household's dislikes hold the ingredient up to case |
| Memory.UpdateMemberPreferences | memory/memory_bank.py:90-98 | the member's preferences gain the new keys with the new values winning; other keys keep their values; the household and member entries exist afterwards even for an empty update, and the household's members are the old ones plus this member; other households and other stores are unchanged |
| Memory.UpdatePreferencesIdempotent | memory/memory_bank.py:98 | applying the same preference update twice leaves the member's preferences as applying it once |
| Memory.StoreMealPlan | memory/memory_bank.py:114-126 | the history grows by the plan, becomes the newest entry, and is cut to the ten newest; other households' histories are unchanged |
| Memory.GetMealHistory | memory/memory_bank.py:128-131 | the result is a tail of the history, of length min(limit, size) for a positive limit (default 5), and the whole history for limit 0 |
| Memory.StoredPlanIsNewest | memory/memory_bank.py:114-131 | after storing a plan, a history of limit 1 is exactly that plan |
| Memory.OperationsKeepValid | memory/memory_bank.py:26-126 | every update of the bank keeps favourite names distinct, dislikes distinct ignoring case, and histories at most ten long |
| Memory.AddFavoriteKeepsValid | memory/memory_bank.py:34-40 | adding a favourite keeps each member's favourite names distinct |
| Memory.AddDislikeKeepsValid | memory/memory_bank.py:64-66 | adding a dislike keeps each member's dislikes distinct ignoring case |
| Memory.UpdatePreferencesKeepsValid | memory/memory_bank.py:90-98 | updating preferences keeps the bank invariant |
| Memory.StoreKeepsValid | memory/memory_bank.py:124-126 | storing a plan keeps every history at most ten long |
| Memory.GetMemoryContext | memory/memory_bank.py:137-145 | the recent plans are the newest min(3, size) of the history, and every member's dislikes are among the combined dislikes |
| Memory.GetMemberProfileSummary | memory/memory_bank.py:147-154 | the summary carries the member's name, and is empty for a household the bank has not seen |
| Memory.SummaryReflectsAdds | memory/memory_bank.py:147-154 | after adding a favourite and a dislike, the member's summary lists both |
| Slices.RecentTail | memory/memory_bank.py:131 | the result is a tail of the list: min(limit, size) long for a positive limit, the whole list for 0, and all but the first -limit for a negative limit |
| Numbers.RoundApproximates | tools/complete_adk_tools.py:177-181 | rounding to one or two places gives a multiple of the unit within half a unit of the input |
| Numbers.RoundIsNearestGridPoint | tools/complete_adk_tools.py:224 | a multiple of the unit is the rounded value exactly when it lies within half a unit of the input, ties going to the upper neighbour |
| Nutrition.TableNonNegative | tools/complete_adk_tools.py:12-23 | every value of the nutrition table is non-negative |
| Nutrition.ScaleFieldMonotone | tools/complete_adk_tools.py:173-181 | a larger amount never gives a smaller scaled value, and a non-negative amount gives a non-negative one |
| Nutrition.NutritionLookup | tools/complete_adk_tools.py:159-194 | the ingredient and amount are echoed; the result is estimated exactly when the lower-cased name is not in the table, and then carries the fixed estimate; otherwise it is the table row scaled to the amount, each value rounded to one place; a non-negative amount gives non-negative values |
| Nutrition.LookupApproximatesScaledRow | tools/complete_adk_tools.py:173-181 | for a known ingredient each value is within half a tenth of the table value times amount/100, and is a multiple of a tenth |
| Nutrition.DefaultAmountIsTableRow | tools/complete_adk_tools.py:159-182 | with the default amount of 100 g a known ingredient gets exactly its table row |
| Nutrition.LookupIgnoresCase | tools/complete_adk_tools.py:169-171 | names that differ only in case get the same values and the same estimated flag |
| Nutrition.LookupMonotone | tools/complete_adk_tools.py:171-182 | for a known ingredient, more grams never give fewer calories, protein, carbs, fat or fibre |
| Nutrition.EstimateIgnoresAmount | tools/complete_adk_tools.py:184-194 | an unknown ingredient gets the fixed estimate whatever the amount |
| Nutrition.ScaledHundred | tools/complete_adk_tools.py:173-181 | values given in tenths come back unchanged when scaled to 100 g |
| Nutrition.LookupOfHundredGrams | tools/complete_adk_tools.py:171-182 | looking up 100 g of a known ingredient returns its table row |
| Nutrition.SalmonExample | tools/complete_adk_tools.py:16 | 200 g of "Salmon" has 412 calories and is not an estimate |
| Nutrition.CalculateRecipeNutrition | tools/complete_adk_tools.py:197-227 | malformed input is an error; division by zero happens exactly when servings (default 4) is 0; otherwise the servings are echoed, 4 when missing, and each per-serving value is the recipe's total for that value divided by the servings, rounded to two places |
| Nutrition.PerServingApproximatesShare | tools/complete_adk_tools.py:211-224 | each per-serving value is within half a hundredth of the sum of the looked-up values divided by the servings |
| Nutrition.RecipeOrderIndependent | tools/complete_adk_tools.py:213-221 | reordering a recipe's ingredients does not change its per-serving nutrition |
| Nutrition.RecipeTotalsAppend | tools/complete_adk_tools.py:213-221 | one more ingredient adds its looked-up values to each total |
| Nutrition.SingleServingOfOne | tools/complete_adk_tools.py:223-225 | a one-ingredient recipe of one serving reports exactly that ingredient's values |
| Nutrition.EmptyRecipe | tools/complete_adk_tools.py:211-227 | a recipe without ingredients reports zeros for its servings |
| PlanningUtils.FirstThree | utils/meal_planning_utils.py:41 | the result is the first min(3, n) elements |
| PlanningUtils.ScheduleScore | utils/meal_planning_utils.py:44-60 | division by zero exactly when the average exceeds a zero limit; otherwise the score lies in [0, 100], and is 100 when the average is within the limit |
| PlanningUtils.ScheduleScoreOverLimit | utils/meal_planning_utils.py:44-60 | an average over a positive limit scores 100, minus 30 times the relative excess, plus 15 times the share of reused names (0 with no names), held to [0, 100] and rounded to one place |
| PlanningUtils.ScheduleScoreOverLimitNoReuse | utils/meal_planning_utils.py:44-60 | without reuse, an average over a positive limit scores 100 minus 30 times the relative excess, floored at 0 and rounded to one place |
| PlanningUtils.ScheduleScoreGrowsWithReuse | utils/meal_planning_utils.py:49-60 | more reused ingredients never lower the score |
| PlanningUtils.ScheduleScoreFallsWithTime | utils/meal_planning_utils.py:44-60 | for a positive limit a longer average never raises the score |
| PlanningUtils.Suggestions | utils/meal_planning_utils.py:36-42 | the time warning comes first and exactly when the average is over the limit; the batch-cooking suggestion comes last and exactly when some ingredient recurs, naming the first three; there is nothing else |
| PlanningUtils.OptimizeSchedule | utils/meal_planning_utils.py:7-62 | the division-by-zero case as above; the total is the plan's minutes; the average and max_day are those of the cooking statistics: the total over the days rounded to one place and the longest day, both 0 for an empty plan; the score is the schedule score of that average, the limit (default 45), the reuse count and the distinct names, so it lies in [0, 100] and is 100 within the limit; within_limit holds exactly when the average is at most the limit; the reused ingredients are exactly the names on two or more lines, with their counts; the suggestions are exactly those of `Suggestions` for the computed average, verdict and recurring ingredients |
| PlanningUtils.BatchCookNamesRecurring | utils/meal_planning_utils.py:30-42 | the batch-cooking suggestion names the first three of the names on two or more lines, taken in the order each name first appears in the plan |
| PlanningUtils.CalculateOptimizationScore | utils/meal_planning_utils.py:135-146 | the score lies in [0, 100]; with no ingredients it is 80 above 45 minutes a day and 100 otherwise; at most 45 minutes with non-negative reuse it is 100 |
| PlanningUtils.OptimizationScoreOverTime | utils/meal_planning_utils.py:137-146 | above 45 minutes, with reuse between 0 and the ingredient count, the score is 80 plus 15 times the reuse share, rounded to one place |
| PlanningUtils.OptimizationScoreGrowsWithReuse | utils/meal_planning_utils.py:142-146 | a larger reuse count never lowers the score |
| PlanningUtils.PenaltiesDiffer | utils/meal_planning_utils.py:45-50 | for 90 minutes against 45, the schedule score is 70 while the stand-alone score is 80 |
| PlanningUtils.FrequentNames | utils/meal_planning_utils.py:121 | a name is listed exactly when some item with that name is used in three or more meals |
| PlanningUtils.GenerateGroceryList | utils/meal_planning_utils.py:65-132 | the items are sorted by name and are a permutation of the merged, priced records, one per distinct lower-cased name; the budget (default 150) is echoed; within_budget holds exactly when the unrounded sum of all line costs is at most the budget, and the total is that sum rounded to cents; the first tip is the budget tip of that sum and the remaining tips are the bulk tip of the items |
| PlanningUtils.BudgetTip | utils/meal_planning_utils.py:115-119 | the tip says within budget exactly when the cost is at most the budget, with the remainder rounded to cents, and otherwise the excess rounded to cents; both are non-negative |
| PlanningUtils.BulkTips | utils/meal_planning_utils.py:121-123 | there is a bulk tip exactly when some item is used in three or more meals; it names the first three such items in list order, each one such an item |
| PlanningUtils.GroceryItems | utils/meal_planning_utils.py:83-112 | the items are sorted by name, are a permutation of the priced records, and number the distinct lower-cased names |
| PlanningUtils.MergedBill | utils/meal_planning_utils.py:98-109 | the cost summed over the merged records equals the sum of the unrounded costs of all lines |
| PlanningUtils.AbsorbAddsLineCost | utils/meal_planning_utils.py:88-100 | folding one line into the records adds exactly that line's unrounded cost to their total cost |
| PlanningUtils.MergedBillIsLineBill | utils/meal_planning_utils.py:98-109 | the unrounded cost of the merged records equals the sum of the unrounded costs of all lines |
| PlanningUtils.PricedAtAreExpected | utils/meal_planning_utils.py:83-108 | every priced record is the expected item of one of the plan's names |
| PlanningUtils.ExpectedArePricedAt | utils/meal_planning_utils.py:83-108 | every name of the plan has its expected item among the priced records |
| PlanningUtils.GroceryItemsAreExpected | utils/meal_planning_utils.py:65-112 | the grocery items are exactly the expected items of the plan's names: title-cased name, total amount, last unit, cost at the given or default prices, and number of lines |
| PlanningUtils.UnitPoliciesDiverge | utils/meal_planning_utils.py:91 | for two lines of one name, the utility keeps the second line's unit where the tool set keeps the first |
| Profiles.CreateHouseholdProfile | tools/complete_adk_tools.py:51-81 | the store gains or replaces the household under its id, with no members, the given time limit (default 45) and budget (default 150), and non-blank stripped cuisines; other households are unchanged |
| Profiles.NewMember | tools/complete_adk_tools.py:108-114 | the member's restrictions, allergies and conditions are non-blank and stripped |
| Profiles.AddFamilyMember | tools/complete_adk_tools.py:84-117 | an unknown household is an error and leaves the store unchanged; otherwise exactly the new member is appended to that household and nothing else changes |
| Profiles.Gather | tools/complete_adk_tools.py:137-145 | a value is gathered exactly when some member's list holds it |
| Profiles.GatherAppend | tools/complete_adk_tools.py:137-140 | gathering after one more member adds exactly that member's values |
| Profiles.GetHouseholdConstraints | tools/complete_adk_tools.py:120-152 | an unknown household is an error; otherwise the restrictions, allergies and conditions are exactly the union of the members' lists, and the member count is the number of members; the id, the members, the time limit, the weekly budget and the cuisines are the household's own |
| Profiles.CreatedHouseholdHasNoConstraints | tools/complete_adk_tools.py:70-81 | a new household has no members and no constraints, and keeps its time limit, budget and cuisines |
| Profiles.AddMemberExtendsConstraints | tools/complete_adk_tools.py:116-146 | adding a member raises the count by one and adds exactly the new member's values to each constraint set |
| Schedule.CookingStatsOf | tools/complete_adk_tools.py:372-386 | one daily time per day, the sum of its meals' minutes; the total is the plan's minutes; an empty plan gives zeros; max and min are daily times bounding all of them |
| Schedule.DailySumIsPlanMinutes | tools/complete_adk_tools.py:375-378 | the sum of the daily times is the plan's total minutes |
| Schedule.AverageBetweenMinAndMax | tools/complete_adk_tools.py:382-384 | for a non-empty plan the rounded average lies between the minimum and maximum day |
| Schedule.AnalyzeCookingTime | tools/complete_adk_tools.py:358-386 | malformed input is an error; otherwise the loop computes exactly the cooking statistics |
| Schedule.Recurring | tools/complete_adk_tools.py:412 | a count is kept exactly when it is at least two |
| Schedule.FindIngredientReuse | tools/complete_adk_tools.py:389-418 | malformed input is an error; the reuse count is the number of reused names and at most the number of distinct names, which is the number of distinct lower-cased names |
| Schedule.CountsAreExact | tools/complete_adk_tools.py:403-409 | each name's count is the number of lines with that lower-cased name, and every name of the plan is counted |
| Schedule.ReusedIffTwoOrMore | tools/complete_adk_tools.py:411-412 | a name is reported as reused exactly when it is on two or more lines, with that count |
| Schedule.RecurringInFirstSeenOrder | tools/complete_adk_tools.py:403-412 | the names kept as reused are the names on two or more lines, in the order each name first appears in the plan |
| Schedule.AbsorbAddsOneUse | tools/complete_adk_tools.py:405-409 | one more line adds exactly one to the records' total count |
| Schedule.UsesCoverLines | tools/complete_adk_tools.py:441-456 | the merged records' counts add up to the number of lines |
| Schedule.CountsSumToLines | tools/complete_adk_tools.py:403-409 | the counts add up to the number of ingredient lines of the plan |
| Sessions.CreateSession | memory/session_manager.py:13-22 | the session is added or replaced, empty and tied to the household; other sessions are unchanged |
| Sessions.AddMessage | memory/session_manager.py:24-31 | an unknown session leaves everything unchanged; otherwise exactly the message is appended to that session |
| Sessions.UpdateContext | memory/session_manager.py:33-36 | an unknown session leaves everything unchanged; otherwise the context gains the new keys, the new values winning, and nothing else changes |
| Sessions.GetSession | memory/session_manager.py:38-40 | a session is returned exactly when the id is known |
| Sessions.GetContext | memory/session_manager.py:42-46 | the session's context, or empty for an unknown id |
| Sessions.GetMessages | memory/session_manager.py:48-53 | a tail of the session's messages, min(limit, size) long for a positive limit (default 10), all of them for limit 0, and all but the first -limit for a negative limit; empty for an unknown id |
| Sessions.AddedMessageIsNewest | memory/session_manager.py:48-52 | after adding a message, it is the last of the recent messages |
| Sessions.FirstMessageOfNewSession | memory/session_manager.py:13-31 | a new session with one message returns just that message and an empty context |
| Sessions.MessagesStayInTheirSession | memory/session_manager.py:24-31 | adding a message to one session does not change another session's messages |
| Shopping.AbsorbFind | tools/complete_adk_tools.py:447-456 | one merge step keeps names distinct, adds the line's name, and changes only that name's record: created if new, else amount added, count raised, unit per policy |
| Shopping.AggregateMatchesPlan | tools/complete_adk_tools.py:441-456 | the merged records have distinct names, and each name's record holds the name's total amount, its first or last unit as the policy says, and its number of lines |
| Shopping.AggregateIsExpectedPerKey | tools/complete_adk_tools.py:441-456 | there is one record per distinct lower-cased name, each record is the expected one, and every name has its expected record |
| Shopping.AggregateKeysFirstSeen | tools/complete_adk_tools.py:441-456 | the merged records come in the order each lower-cased name first appears in the plan |
| Plans.FirstSeen | tools/complete_adk_tools.py:403-409 | the distinct names in first-seen order hold exactly the plan's lower-cased names |
| Shopping.AggregateIngredientsForShopping | tools/complete_adk_tools.py:425-478 | malformed input is an error; the list is sorted by name; the item count is the number of distinct lower-cased names; the total is the sum of the items' costs, rounded to cents |
| Shopping.PricedAreExpected | tools/complete_adk_tools.py:458-471 | every priced record is the expected item of one of the plan's names |
| Shopping.ExpectedArePriced | tools/complete_adk_tools.py:458-471 | every name of the plan has its expected item among the priced records |
| Shopping.ShoppingListIsExpected | tools/complete_adk_tools.py:441-475 | the list holds exactly the expected items of the plan's names: title-cased name, total amount, first unit, table cost, and number of lines |
| Shopping.SameNameMerges | tools/complete_adk_tools.py:447-449 | two lines of one name in two meals merge into a single item used in two meals, with the summed amount |
| Shopping.GroceryAggregateForShopping | tools/grocery_tools.py:6-26 | malformed input is an error; the list is sorted by name and has one item per distinct lower-cased name |
| Shopping.GroceryListDropsUsedIn | tools/grocery_tools.py:10-25 | the grocery module's list is the tool set's list without used_in, with the same count and total |
| Sorting.SortBy | tools/complete_adk_tools.py:475 | the result is sorted by the key and is a permutation of the input |

## Left out

- Python's `round` rounds half to even on binary floats; the model rounds half up on exact reals. Results can differ where the digit after the last kept place is 5.
- Integer and float widths are not modelled: amounts and prices are exact reals, and minutes and counts are unbounded integers.
- `lower`, `title` and `strip` act on ASCII letters and ASCII white space only.
- JSON parsing is not modelled. An argument is either a parsed value or malformed, and the parser applies the missing-field defaults.
- The texts of the nutrition and cost notes are a boolean `estimated` flag. The texts of suggestions and tips are datatypes holding the values they format; float formatting is not modelled.
- The `cost_per_100g` field of a cost estimate is not part of the result.
- Timestamps (`created_at`, `favorited_at`, `timestamp`) are left out because they come from the clock.
- A favourite's recipe fields other than its name are a map of strings. Preferences and session context are maps of strings to strings.
- A stored meal-plan history entry is the plan itself.
- `household_preferences` and `member_health_history` of the memory bank are never read or written, so they are not modelled.
- `list(set(...))` is modelled as a set, because the order of its elements is unspecified.
- `tools/schedule_tools.py`, `tools/cost_estimator.py`, `tools/grocery_tools.py` and `tools/health_guidelines.py` catch every error with a bare `except` and report it as invalid JSON. Typed input raises nothing but the parse error, so only that error is modelled.
- Memory.GetMemberProfileSummary: its contract states only the name and the empty case; `SummaryReflectsAdds` states what the lists hold after updates.
- Memory.GetMemoryContext: its contract states the recent plans and that each member's dislikes are in the combined set, not the favourites and preferences maps, which are plain lookups.
- Shopping.GroceryAggregateForShopping: its contract does not restate the items and total; `GroceryListDropsUsedIn` ties them to the tool set's list.
- The module-level store instances, the agents, the orchestrators, the display helpers and the ADK wrapper tools are not part of this model.

=== FILE: costs.dfy ===
/** The price table and the cost tools: one ingredient's cost, and the cost of
    a whole plan per day. */
module Costs {
  import opened Outcomes
  import opened Text
  import opened Numbers
  import opened Plans

  /** Dollars per 100 g, keyed by lower-cased ingredient name. */
  const CostDb: map<string, real> := map[
    "chicken breast" := 1.20, "brown rice" := 0.15, "broccoli" := 0.40,
    "salmon" := 2.50, "quinoa" := 0.80, "spinach" := 0.60,
    "sweet potato" := 0.30, "eggs" := 0.25, "olive oil" := 1.00, "tofu" := 0.90
  ]

  /** Dollars per 100 g assumed for an ingredient missing from the table. */
  const FallbackPricePer100g: real := 0.50

  /** `estimated` stands for the `note` key the tools add on a table miss. */
  datatype CostEstimate = CostEstimate(ingredient: string, amountGrams: real, totalCost: real, estimated: bool)

  /** The price per 100 g used for a lower-cased name. */
  function PriceOf(db: map<string, real>, key: string): real {
    if key in db then db[key] else FallbackPricePer100g
  }

  /** Every price in the table is non-negative. */
  lemma PriceNonNegative(db: map<string, real>, key: string)
    requires db == CostDb
    ensures PriceOf(db, key) >= 0.0
  {
    assert forall k :: k in CostDb ==> CostDb[k] >= 0.0;
  }

  /** The unrounded cost of `amountGrams` at `price` per 100 g. */
  function RawCharge(amountGrams: real, price: real): real {
    amountGrams / 100.0 * price
  }

  /** The same, rounded to cents. */
  function Charge(amountGrams: real, price: real): real {
    Round(RawCharge(amountGrams, price), 2)
  }

  lemma ChargeMonotone(x: real, y: real, price: real)
    requires x <= y && price >= 0.0
    ensures RawCharge(x, price) <= RawCharge(y, price)
    ensures Charge(x, price) <= Charge(y, price)
    ensures Charge(0.0, price) == 0.0
  {
    MulMonotone(x / 100.0, y / 100.0, price);
    RoundMonotone(RawCharge(x, price), RawCharge(y, price), 2);
    assert RawCharge(0.0, price) == 0.0;
    RoundOfWhole(0, 2);
  }

  lemma ChargeNonNegative(amountGrams: real, price: real)
    requires price >= 0.0
    ensures amountGrams >= 0.0 ==> RawCharge(amountGrams, price) >= 0.0 && Charge(amountGrams, price) >= 0.0
  {
    MulNonNegative(amountGrams / 100.0, price);
    RoundKeepsSign(RawCharge(amountGrams, price), 2);
  }

  /** `estimate_ingredient_cost`: scale the per-100 g price by the amount and
      round to cents; names match the table ignoring case. */
  function EstimateIngredientCost(ingredient: string, amountGrams: real): (r: CostEstimate)
    ensures r.ingredient == ingredient && r.amountGrams == amountGrams
    ensures r.estimated <==> Lower(ingredient) !in CostDb
    ensures amountGrams >= 0.0 ==> r.totalCost >= 0.0
  {
    var key := Lower(ingredient);
    PriceNonNegative(CostDb, key);
    ChargeNonNegative(amountGrams, PriceOf(CostDb, key));
    CostEstimate(ingredient, amountGrams, Charge(amountGrams, PriceOf(CostDb, key)), key !in CostDb)
  }

  /** A table hit costs the table price per 100 g; a miss costs 0.50 per 100 g
      and is flagged as estimated. */
  lemma EstimateUsesTableOrFallback(ingredient: string, amountGrams: real)
    ensures var r := EstimateIngredientCost(ingredient, amountGrams);
      && (Lower(ingredient) in CostDb ==>
            !r.estimated && r.totalCost == Charge(amountGrams, CostDb[Lower(ingredient)]))
      && (Lower(ingredient) !in CostDb ==>
            r.estimated && r.totalCost == Charge(amountGrams, 0.50))
  {
  }

  /** Names that differ only in case cost the same. */
  lemma EstimateIgnoresCase(a: string, b: string, amountGrams: real)
    requires Lower(a) == Lower(b)
    ensures EstimateIngredientCost(a, amountGrams).totalCost == EstimateIngredientCost(b, amountGrams).totalCost
    ensures EstimateIngredientCost(a, amountGrams).estimated == EstimateIngredientCost(b, amountGrams).estimated
  {
  }

  /** No amount, no cost. */
  lemma EstimateOfNothing(ingredient: string)
    ensures EstimateIngredientCost(ingredient, 0.0).totalCost == 0.0
  {
    var p := PriceOf(CostDb, Lower(ingredient));
    PriceNonNegative(CostDb, Lower(ingredient));
    ChargeMonotone(0.0, 0.0, p);
  }

  /** More of an ingredient never costs less. */
  lemma EstimateMonotone(ingredient: string, x: real, y: real)
    requires x <= y
    ensures EstimateIngredientCost(ingredient, x).totalCost <= EstimateIngredientCost(ingredient, y).totalCost
  {
    var p := PriceOf(CostDb, Lower(ingredient));
    PriceNonNegative(CostDb, Lower(ingredient));
    ChargeMonotone(x, y, p);
  }

  /** The rounded cost of one ingredient line. */
  function LineCost(l: Line): real {
    EstimateIngredientCost(l.name, l.amount).totalCost
  }

  /** A day's cost: the sum of its lines' rounded costs, itself unrounded. */
  function DayCost(d: Day): real {
    SumOf(DayLines(d), LineCost)
  }

  datatype PlanCost = PlanCost(totalCost: real, dailyCosts: seq<real>, averagePerDay: real)

  /** `calculate_meal_plan_cost` */
  function CalculateMealPlanCost(input: Json<Plan>): (r: Result<PlanCost>)
    ensures input.Malformed? <==> r == Err(InvalidJson)
    ensures r.Ok? ==> |r.value.dailyCosts| == |input.value|
    ensures r.Ok? ==> forall i :: 0 <= i < |input.value| ==>
      r.value.dailyCosts[i] == Round(DayCost(input.value[i]), 2)
    ensures r.Ok? && |input.value| == 0 ==> r.value.averagePerDay == 0.0 && r.value.totalCost == 0.0
    ensures r.Ok? ==> r.value.totalCost == Round(SumOf(Lines(input.value), LineCost), 2)
    ensures r.Ok? && |input.value| > 0 ==>
      r.value.averagePerDay == Round(SumOf(Lines(input.value), LineCost) / |input.value| as real, 2)
  {
    match input
    case Malformed => Err(InvalidJson)
    case Parsed(plan) =>
      var days := seq(|plan|, i requires 0 <= i < |plan| => DayCost(plan[i]));
      var total := SumOf(plan, DayCost);
      PlanCostIsSumOfLineCosts(plan);
      RoundOfWhole(0, 2);
      Ok(PlanCost(
        Round(total, 2),
        seq(|plan|, i requires 0 <= i < |plan| => Round(days[i], 2)),
        if |plan| > 0 then Round(total / (|plan| as real), 2) else 0.0))
  }

  /** The plan's unrounded total is the sum of every line's rounded cost: the
      per-day split adds nothing and loses nothing. */
  lemma {:induction false} PlanCostIsSumOfLineCosts(plan: Plan)
    ensures SumOf(plan, DayCost) == SumOf(Lines(plan), LineCost)
    decreases |plan|
  {
    if |plan| > 0 {
      PlanCostIsSumOfLineCosts(plan[1..]);
      SumOfAppend(DayLines(plan[0]), Lines(plan[1..]), LineCost);
    }
  }
}

=== FILE: health.dfy ===
/** The health tools: dietary guidelines per condition, and the substring
    check of a recipe's ingredient names against a comma-separated allergy list. */
module Health {
  import opened Outcomes
  import opened Text
  import opened Plans
  import opened Sorting

  /** Foods to avoid and prefer; `note` is present only for an unknown condition. */
  datatype Guideline = Guideline(avoid: seq<string>, prefer: seq<string>, note: Option<string>)

  /** The guideline table of the complete tool set, keyed by lower-cased condition. */
  const CompleteGuidelines: map<string, Guideline> := map[
    "diabetes" := Guideline(
      ["sugar", "white bread", "white rice", "candy", "soda"],
      ["whole grains", "vegetables", "lean protein", "fiber-rich foods"], None),
    "pcos" := Guideline(
      ["refined carbs", "sugar", "processed foods"],
      ["low-GI foods", "vegetables", "lean protein", "healthy fats"], None),
    "high blood pressure" := Guideline(
      ["high sodium", "processed meats", "canned soups"],
      ["fruits", "vegetables", "whole grains", "low-fat dairy"], None)
  ]

  /** The shorter table of the health guideline tool module. */
  const ToolGuidelines: map<string, Guideline> := map[
    "diabetes" := Guideline(
      ["sugar", "white bread", "white rice"],
      ["whole grains", "vegetables", "lean protein"], None),
    "pcos" := Guideline(
      ["refined carbs", "sugar"],
      ["low-GI foods", "vegetables", "lean protein"], None),
    "high blood pressure" := Guideline(
      ["high sodium", "processed meats"],
      ["fruits", "vegetables", "whole grains"], None)
  ]

  const CompleteMissPrefix: string := "No specific guidelines for "
  const ToolMissPrefix: string := "No guidelines for "

  /** `HEALTH_GUIDELINES.get(condition.lower(), default)`; the default's note
      quotes the condition as given, not lower-cased. */
  function GuidelineFrom(table: map<string, Guideline>, missPrefix: string, condition: string): (r: Guideline)
    requires forall k :: k in table ==> table[k].note.None?
    ensures r.note.None? <==> Lower(condition) in table
    ensures r.note.Some? ==> r.avoid == [] && r.prefer == [] && r.note.value == missPrefix + condition
  {
    var key := Lower(condition);
    if key in table then table[key] else Guideline([], [], Some(missPrefix + condition))
  }

  /** `get_health_guidelines` of the complete tool set. */
  function GetHealthGuidelines(condition: string): (r: Guideline)
    ensures r.note.None? <==> Lower(condition) in CompleteGuidelines
    ensures r.note.None? ==> r == CompleteGuidelines[Lower(condition)]
    ensures r.note.Some? ==> r.avoid == [] && r.prefer == [] && r.note.value == CompleteMissPrefix + condition
  {
    GuidelineFrom(CompleteGuidelines, CompleteMissPrefix, condition)
  }

  /** `get_health_guidelines` of the health guideline tool module. */
  function ToolHealthGuidelines(condition: string): (r: Guideline)
    ensures r.note.None? <==> Lower(condition) in ToolGuidelines
    ensures r.note.None? ==> r == ToolGuidelines[Lower(condition)]
    ensures r.note.Some? ==> r.avoid == [] && r.prefer == [] && r.note.value == ToolMissPrefix + condition
  {
    GuidelineFrom(ToolGuidelines, ToolMissPrefix, condition)
  }

  /** Conditions that differ only in case get the same lists. */
  lemma GuidelinesIgnoreCase(a: string, b: string)
    requires Lower(a) == Lower(b)
    ensures GetHealthGuidelines(a).avoid == GetHealthGuidelines(b).avoid
    ensures GetHealthGuidelines(a).prefer == GetHealthGuidelines(b).prefer
    ensures ToolHealthGuidelines(a).avoid == ToolHealthGuidelines(b).avoid
    ensures ToolHealthGuidelines(a).prefer == ToolHealthGuidelines(b).prefer
  {
  }

  /** Both tables know the same conditions, and for each the tool module's
      lists are leading parts of the complete tool set's lists. */
  lemma ToolListsArePrefixes(condition: string)
    ensures Lower(condition) in ToolGuidelines <==> Lower(condition) in CompleteGuidelines
    ensures var t := ToolHealthGuidelines(condition);
      var c := GetHealthGuidelines(condition);
      && t.avoid == c.avoid[..|t.avoid|]
      && t.prefer == c.prefer[..|t.prefer|]
  {
  }

  /** `[a.strip().lower() for a in allergies.split(",") if a.strip()]` */
  function AllergyTerms(allergies: string): seq<string> {
    Map(CommaList(allergies), Lower)
  }

  /** `allergen in ing_name`, with the name lower-cased. */
  predicate Flags(l: Line, term: string) {
    Contains(Lower(l.name), term)
  }

  /** The text reported for one hit: `f"{allergen} in {name}"`. */
  function Report(l: Line, term: string): string {
    term + " in " + l.name
  }

  /** The hits of one ingredient, in allergy-list order. */
  function MatchesIn(l: Line, terms: seq<string>): seq<string>
    decreases |terms|
  {
    if |terms| == 0 then []
    else (if Flags(l, terms[0]) then [Report(l, terms[0])] else []) + MatchesIn(l, terms[1..])
  }

  /** The hits of all ingredients, ingredient by ingredient. */
  function FoundAllergens(ings: seq<Line>, terms: seq<string>): seq<string>
    decreases |ings|
  {
    if |ings| == 0 then [] else MatchesIn(ings[0], terms) + FoundAllergens(ings[1..], terms)
  }

  datatype AllergenReport = AllergenReport(hasAllergens: bool, found: seq<string>)

  /** `check_allergens_in_recipe` */
  function CheckAllergensInRecipe(input: Json<Recipe>, allergies: string): (r: Result<AllergenReport>)
    ensures input.Malformed? <==> r == Err(InvalidJson)
    ensures r.Ok? ==> (r.value.hasAllergens <==> |r.value.found| > 0)
    ensures r.Ok? && |input.value.ingredients| == 0 ==> !r.value.hasAllergens
    ensures r.Ok? ==> r.value.found == FoundAllergens(input.value.ingredients, AllergyTerms(allergies))
  {
    match input
    case Malformed => Err(InvalidJson)
    case Parsed(recipe) =>
      var found := FoundAllergens(recipe.ingredients, AllergyTerms(allergies));
      Ok(AllergenReport(|found| > 0, found))
  }

  lemma {:induction false} MatchesInSpec(l: Line, terms: seq<string>)
    ensures forall s :: s in MatchesIn(l, terms) <==>
      exists j :: 0 <= j < |terms| && Flags(l, terms[j]) && s == Report(l, terms[j])
    decreases |terms|
  {
    if |terms| > 0 {
      MatchesInSpec(l, terms[1..]);
      forall s ensures s in MatchesIn(l, terms) <==>
        exists j :: 0 <= j < |terms| && Flags(l, terms[j]) && s == Report(l, terms[j])
      {
        if s in MatchesIn(l, terms[1..]) {
          var j :| 0 <= j < |terms[1..]| && Flags(l, terms[1..][j]) && s == Report(l, terms[1..][j]);
          assert terms[j + 1] == terms[1..][j];
        }
        if exists j :: 0 <= j < |terms| && Flags(l, terms[j]) && s == Report(l, terms[j]) {
          var j :| 0 <= j < |terms| && Flags(l, terms[j]) && s == Report(l, terms[j]);
          if j > 0 {
            assert terms[1..][j - 1] == terms[j];
          }
        }
      }
    }
  }

  /** A text is reported exactly when it names a term of the list found in
      the lower-cased name of some ingredient. */
  lemma {:induction false} FoundAllergensSpec(ings: seq<Line>, terms: seq<string>)
    ensures forall s :: s in FoundAllergens(ings, terms) <==>
      exists i, j :: 0 <= i < |ings| && 0 <= j < |terms| && Flags(ings[i], terms[j]) && s == Report(ings[i], terms[j])
    decreases |ings|
  {
    if |ings| > 0 {
      FoundAllergensSpec(ings[1..], terms);
      MatchesInSpec(ings[0], terms);
      forall s ensures s in FoundAllergens(ings, terms) <==>
        exists i, j :: 0 <= i < |ings| && 0 <= j < |terms| && Flags(ings[i], terms[j]) && s == Report(ings[i], terms[j])
      {
        if s in FoundAllergens(ings[1..], terms) {
          var i, j :| 0 <= i < |ings[1..]| && 0 <= j < |terms| && Flags(ings[1..][i], terms[j]) && s == Report(ings[1..][i], terms[j]);
          assert ings[i + 1] == ings[1..][i];
        }
        if exists i, j :: 0 <= i < |ings| && 0 <= j < |terms| && Flags(ings[i], terms[j]) && s == Report(ings[i], terms[j]) {
          var i, j :| 0 <= i < |ings| && 0 <= j < |terms| && Flags(ings[i], terms[j]) && s == Report(ings[i], terms[j]);
          if i > 0 {
            assert ings[1..][i - 1] == ings[i];
          }
        }
      }
    }
  }

  /** Hits are listed ingredient by ingredient, each ingredient's hits kept in
      allergy-list order and repeated as often as they occur: the report for
      a longer recipe is the report for its first part followed by the rest. */
  lemma {:induction false} FoundAllergensAppend(a: seq<Line>, b: seq<Line>, terms: seq<string>)
    ensures FoundAllergens(a + b, terms) == FoundAllergens(a, terms) + FoundAllergens(b, terms)
    decreases |a|
  {
    if |a| > 0 {
      FoundAllergensAppend(a[1..], b, terms);
      assert (a + b)[1..] == a[1..] + b;
    } else {
      assert a + b == b;
    }
  }

  /** The tool's report holds exactly one "term in name" text per matching
      ingredient and term, and lists the first ingredient's hits, in
      allergy-list order, ahead of those of the rest of the recipe. */
  lemma AllergenReportSpec(recipe: Recipe, allergies: string)
    ensures var found := CheckAllergensInRecipe(Parsed(recipe), allergies).value.found;
      var ings := recipe.ingredients;
      var terms := AllergyTerms(allergies);
      forall s :: s in found <==>
        exists i, j :: 0 <= i < |ings| && 0 <= j < |terms| && Flags(ings[i], terms[j]) && s == Report(ings[i], terms[j])
    ensures var ings := recipe.ingredients;
      |ings| > 0 ==>
        CheckAllergensInRecipe(Parsed(recipe), allergies).value.found
          == MatchesIn(ings[0], AllergyTerms(allergies))
             + CheckAllergensInRecipe(Parsed(recipe.(ingredients := ings[1..])), allergies).value.found
  {
    FoundAllergensSpec(recipe.ingredients, AllergyTerms(allergies));
  }

  /** The recipe is flagged exactly when some allergy term occurs in some
      ingredient's lower-cased name. */
  lemma HasAllergensIffSomeTermOccurs(recipe: Recipe, allergies: string)
    ensures var terms := AllergyTerms(allergies);
      CheckAllergensInRecipe(Parsed(recipe), allergies).value.hasAllergens <==>
      exists i, j :: 0 <= i < |recipe.ingredients| && 0 <= j < |terms| && Flags(recipe.ingredients[i], terms[j])
  {
    var ings := recipe.ingredients;
    var terms := AllergyTerms(allergies);
    var found := FoundAllergens(ings, terms);
    FoundAllergensSpec(ings, terms);
    if exists i, j :: 0 <= i < |ings| && 0 <= j < |terms| && Flags(ings[i], terms[j]) {
      var i, j :| 0 <= i < |ings| && 0 <= j < |terms| && Flags(ings[i], terms[j]);
      assert Report(ings[i], terms[j]) in found;
    }
    if |found| > 0 {
      assert found[0] in found;
    }
  }

  /** Every allergy term is non-empty and lower-case, so a blank allergy list
      flags nothing. */
  lemma AllergyTermsAreLowerAndNonEmpty(allergies: string)
    ensures forall t :: t in AllergyTerms(allergies) ==> t != "" && IsLowered(t)
    ensures allergies == "" ==> AllergyTerms(allergies) == []
  {
    var parts := CommaList(allergies);
    NonBlankStrippedSpec(Split(allergies, ','));
    forall t | t in AllergyTerms(allergies) ensures t != "" && IsLowered(t) {
      var i :| 0 <= i < |parts| && Map(parts, Lower)[i] == t;
      assert parts[i] in parts;
    }
    if allergies == "" {
      CommaListOfEmpty();
    }
  }
}

=== FILE: memory.dfy ===
/** The long-term memory bank: per-member favourite recipes, disliked
    ingredients and preferences, and each household's recent meal plans.
    The bank is an explicit value passed in and returned. */
module Memory {
  import opened Outcomes
  import opened Text
  import opened Plans
  import opened Slices

  /** A recipe as given to the bank: its optional `name` and its other fields. */
  datatype Dish = Dish(name: Option<string>, details: map<string, string>)

  /** A stored favourite: the recipe and the member who favourited it. */
  datatype Favorite = Favorite(dish: Dish, favoritedBy: string)

  /** household id -> member name -> value */
  type PerMember<T> = map<string, map<string, T>>

  datatype Bank = Bank(
    history: map<string, seq<Plan>>,
    favorites: PerMember<seq<Favorite>>,
    dislikes: PerMember<seq<string>>,
    preferences: PerMember<map<string, string>>)

  const EmptyBank: Bank := Bank(map[], map[], map[], map[])

  /** Plans kept per household. */
  const MaxHistory: nat := 10

  /** Plans returned by `get_meal_history` when no limit is given. */
  const DefaultHistoryLimit: int := 5

  /** `m.get(household_id, {})` */
  function Members<T>(m: PerMember<T>, hid: string): map<string, T> {
    if hid in m then m[hid] else map[]
  }

  /** `m[household_id].get(member, default)` when the household is known, else the default. */
  function MemberValue<T>(m: PerMember<T>, hid: string, member: string, default: T): T {
    var inner := Members(m, hid);
    if member in inner then inner[member] else default
  }

  /** `m[household_id][member] = v`, creating the household's map if needed. */
  function SetMemberValue<T>(m: PerMember<T>, hid: string, member: string, v: T): (r: PerMember<T>)
    ensures r.Keys == m.Keys + {hid}
    ensures MemberValue(r, hid, member, v) == v
    ensures forall h :: h != hid ==> Members(r, h) == Members(m, h)
    ensures Members(r, hid) == Members(m, hid)[member := v]
  {
    m[hid := Members(m, hid)[member := v]]
  }

  /** A property every stored value has survives storing one more value that has it. */
  lemma SetMemberValueKeeps<T>(m: PerMember<T>, hid: string, member: string, v: T, P: T -> bool)
    requires forall h, n :: h in m && n in m[h] ==> P(m[h][n])
    requires P(v)
    ensures var r := SetMemberValue(m, hid, member, v);
      forall h, n :: h in r && n in r[h] ==> P(r[h][n])
  {
  }

  /** No two favourites of a list share a recipe name. */
  predicate DistinctNames(fs: seq<Favorite>) {
    forall i, j :: 0 <= i < j < |fs| ==> fs[i].dish.name != fs[j].dish.name
  }

  /** No two dislikes of a list are equal ignoring case. */
  predicate DistinctIgnoringCase(ds: seq<string>) {
    forall i, j :: 0 <= i < j < |ds| ==> Lower(ds[i]) != Lower(ds[j])
  }

  /** What every operation of the bank keeps true. */
  predicate Valid(b: Bank) {
    && (forall h, n :: h in b.favorites && n in b.favorites[h] ==> DistinctNames(b.favorites[h][n]))
    && (forall h, n :: h in b.dislikes && n in b.dislikes[h] ==> DistinctIgnoringCase(b.dislikes[h][n]))
    && (forall h :: h in b.history ==> |b.history[h]| <= MaxHistory)
  }

  lemma EmptyBankValid()
    ensures Valid(EmptyBank)
  {
  }

  /** `get_member_favorites` */
  function GetMemberFavorites(b: Bank, hid: string, member: string): (r: seq<Favorite>)
    ensures hid in b.favorites && member in b.favorites[hid] ==> r == b.favorites[hid][member]
    ensures hid !in b.favorites || member !in b.favorites[hid] ==> r == []
  {
    MemberValue(b.favorites, hid, member, [])
  }

  /** `get_all_member_favorites` */
  function GetAllMemberFavorites(b: Bank, hid: string): (r: map<string, seq<Favorite>>)
    ensures hid in b.favorites ==> r == b.favorites[hid]
    ensures hid !in b.favorites ==> r == map[]
  {
    Members(b.favorites, hid)
  }

  /** `any(r.get('name') == recipe.get('name') for r in favourites)` */
  predicate HasName(fs: seq<Favorite>, name: Option<string>) {
    exists i :: 0 <= i < |fs| && fs[i].dish.name == name
  }

  /** `add_member_favorite`: appends the recipe unless one with the same
      name (or likewise no name) is already there. */
  function AddMemberFavorite(b: Bank, hid: string, member: string, dish: Dish): (r: Bank)
    ensures r.history == b.history && r.dislikes == b.dislikes && r.preferences == b.preferences
    ensures HasName(GetMemberFavorites(r, hid, member), dish.name)
    ensures HasName(GetMemberFavorites(b, hid, member), dish.name) ==> r == b
    ensures !HasName(GetMemberFavorites(b, hid, member), dish.name) ==>
      GetMemberFavorites(r, hid, member) == GetMemberFavorites(b, hid, member) + [Favorite(dish, member)]
    ensures forall h, n :: h != hid || n != member ==> GetMemberFavorites(r, h, n) == GetMemberFavorites(b, h, n)
  {
    var list := GetMemberFavorites(b, hid, member);
    if HasName(list, dish.name) then b
    else
      var list' := list + [Favorite(dish, member)];
      assert list'[|list|].dish.name == dish.name;
      b.(favorites := SetMemberValue(b.favorites, hid, member, list'))
  }

  /** `get_member_dislikes` */
  function GetMemberDislikes(b: Bank, hid: string, member: string): (r: seq<string>)
    ensures hid in b.dislikes && member in b.dislikes[hid] ==> r == b.dislikes[hid][member]
    ensures hid !in b.dislikes || member !in b.dislikes[hid] ==> r == []
  {
    MemberValue(b.dislikes, hid, member, [])
  }

  /** `get_all_member_dislikes` */
  function GetAllMemberDislikes(b: Bank, hid: string): (r: map<string, seq<string>>)
    ensures hid in b.dislikes ==> r == b.dislikes[hid]
    ensures hid !in b.dislikes ==> r == map[]
  {
    Members(b.dislikes, hid)
  }

  /** `ingredient.lower() in [d.lower() for d in dislikes]` */
  predicate HasIgnoringCase(ds: seq<string>, s: string) {
    exists i :: 0 <= i < |ds| && Lower(ds[i]) == Lower(s)
  }

  /** `add_member_dislike`: appends the ingredient, spelled as given, unless
      it is already there ignoring case. */
  function AddMemberDislike(b: Bank, hid: string, member: string, ingredient: string): (r: Bank)
    ensures r.history == b.history && r.favorites == b.favorites && r.preferences == b.preferences
    ensures HasIgnoringCase(GetMemberDislikes(r, hid, member), ingredient)
    ensures HasIgnoringCase(GetMemberDislikes(b, hid, member), ingredient) ==> r == b
    ensures !HasIgnoringCase(GetMemberDislikes(b, hid, member), ingredient) ==>
      GetMemberDislikes(r, hid, member) == GetMemberDislikes(b, hid, member) + [ingredient]
    ensures forall h, n :: h != hid || n != member ==> GetMemberDislikes(r, h, n) == GetMemberDislikes(b, h, n)
  {
    var list := GetMemberDislikes(b, hid, member);
    if HasIgnoringCase(list, ingredient) then b
    else
      var list' := list + [ingredient];
      assert list'[|list|] == ingredient;
      b.(dislikes := SetMemberValue(b.dislikes, hid, member, list'))
  }

  /** `get_household_dislikes`: every member's dislikes, without repeats. */
  function GetHouseholdDislikes(b: Bank, hid: string): (r: set<string>)
    ensures forall x :: x in r <==> exists n :: n in Members(b.dislikes, hid) && x in Members(b.dislikes, hid)[n]
    ensures hid !in b.dislikes ==> r == {}
  {
    var inner := Members(b.dislikes, hid);
    set n, x | n in inner && x in inner[n] :: x
  }

  /** A dislike just added shows up in the household's combined dislikes,
      spelled as stored. */
  lemma AddedDislikeIsHouseholdDislike(b: Bank, hid: string, member: string, ingredient: string)
    ensures exists x :: x in GetHouseholdDislikes(AddMemberDislike(b, hid, member, ingredient), hid) && Lower(x) == Lower(ingredient)
  {
    var r := AddMemberDislike(b, hid, member, ingredient);
    var list := GetMemberDislikes(r, hid, member);
    var i :| 0 <= i < |list| && Lower(list[i]) == Lower(ingredient);
    assert member in Members(r.dislikes, hid);
    assert list[i] in Members(r.dislikes, hid)[member];
  }

  /** `get_member_preferences` */
  function GetMemberPreferences(b: Bank, hid: string, member: string): (r: map<string, string>)
    ensures hid in b.preferences && member in b.preferences[hid] ==> r == b.preferences[hid][member]
    ensures hid !in b.preferences || member !in b.preferences[hid] ==> r == map[]
  {
    MemberValue(b.preferences, hid, member, map[])
  }

  /** `get_all_member_preferences` */
  function GetAllMemberPreferences(b: Bank, hid: string): (r: map<string, map<string, string>>)
    ensures hid in b.preferences ==> r == b.preferences[hid]
    ensures hid !in b.preferences ==> r == map[]
  {
    Members(b.preferences, hid)
  }

  /** A member's own lookup agrees with the household's map of all members:
      a listed member gets their entry, anyone else gets an empty value. */
  lemma MemberGettersAgree(b: Bank, hid: string, member: string)
    ensures var all := GetAllMemberFavorites(b, hid);
      GetMemberFavorites(b, hid, member) == if member in all then all[member] else []
    ensures var all := GetAllMemberDislikes(b, hid);
      GetMemberDislikes(b, hid, member) == if member in all then all[member] else []
    ensures var all := GetAllMemberPreferences(b, hid);
      GetMemberPreferences(b, hid, member) == if member in all then all[member] else map[]
  {
  }

  /** A bank that has never heard of a household answers every getter with an
      empty value. */
  lemma UnknownHouseholdIsEmpty(hid: string, member: string)
    ensures GetMemberFavorites(EmptyBank, hid, member) == [] && GetAllMemberFavorites(EmptyBank, hid) == map[]
    ensures GetMemberDislikes(EmptyBank, hid, member) == [] && GetAllMemberDislikes(EmptyBank, hid) == map[]
    ensures GetMemberPreferences(EmptyBank, hid, member) == map[] && GetAllMemberPreferences(EmptyBank, hid) == map[]
    ensures GetHouseholdDislikes(EmptyBank, hid) == {} && GetMealHistory(EmptyBank, hid) == []
  {
  }

  /** `update_member_preferences`: `dict.update`, the new values winning. */
  function UpdateMemberPreferences(b: Bank, hid: string, member: string, prefs: map<string, string>): (r: Bank)
    ensures r.history == b.history && r.favorites == b.favorites && r.dislikes == b.dislikes
    ensures var old_ := GetMemberPreferences(b, hid, member);
      var new_ := GetMemberPreferences(r, hid, member);
      && new_.Keys == old_.Keys + prefs.Keys
      && (forall k :: k in prefs ==> new_[k] == prefs[k])
      && (forall k :: k in old_ && k !in prefs ==> new_[k] == old_[k])
    ensures forall h, n :: h != hid || n != member ==> GetMemberPreferences(r, h, n) == GetMemberPreferences(b, h, n)
    ensures hid in r.preferences && GetAllMemberPreferences(r, hid).Keys == GetAllMemberPreferences(b, hid).Keys + {member}
    ensures forall h :: h != hid ==> GetAllMemberPreferences(r, h) == GetAllMemberPreferences(b, h)
  {
    var merged := GetMemberPreferences(b, hid, member) + prefs;
    b.(preferences := SetMemberValue(b.preferences, hid, member, merged))
  }

  /** Applying the same update twice is the same as applying it once. */
  lemma UpdatePreferencesIdempotent(b: Bank, hid: string, member: string, prefs: map<string, string>)
    ensures var once := UpdateMemberPreferences(b, hid, member, prefs);
      GetMemberPreferences(UpdateMemberPreferences(once, hid, member, prefs), hid, member)
        == GetMemberPreferences(once, hid, member)
  {
    var once := UpdateMemberPreferences(b, hid, member, prefs);
    var m1 := GetMemberPreferences(once, hid, member);
    assert m1 + prefs == m1;
  }

  /** `self.meal_history.get(household_id, [])` */
  function HistoryOf(b: Bank, hid: string): seq<Plan> {
    if hid in b.history then b.history[hid] else []
  }

  /** `h` is `before` grown by `plan` and cut to the newest `MaxHistory` entries. */
  predicate KeepsNewest(h: seq<Plan>, before: seq<Plan>, plan: Plan) {
    && |h| == MinNat(|before| + 1, MaxHistory)
    && 1 <= |h| <= |before| + 1
    && h[|h| - 1] == plan
    && h == (before + [plan])[|before| + 1 - |h|..]
  }

  lemma GrownTail(hist: seq<Plan>, plan: Plan)
    ensures KeepsNewest(RecentTail(hist + [plan], MaxHistory), hist, plan)
  {
    var grown := hist + [plan];
    var kept := RecentTail(grown, MaxHistory);
    assert kept[|kept| - 1] == grown[|grown| - 1];
  }

  /** `store_meal_plan`: appends the plan and keeps only the ten newest. */
  function StoreMealPlan(b: Bank, hid: string, plan: Plan): (r: Bank)
    ensures r.favorites == b.favorites && r.dislikes == b.dislikes && r.preferences == b.preferences
    ensures KeepsNewest(HistoryOf(r, hid), HistoryOf(b, hid), plan)
    ensures hid in r.history && r.history == b.history[hid := r.history[hid]]
  {
    var kept := RecentTail(HistoryOf(b, hid) + [plan], MaxHistory);
    var r := b.(history := b.history[hid := kept]);
    assert HistoryOf(r, hid) == kept;
    assert KeepsNewest(HistoryOf(r, hid), HistoryOf(b, hid), plan) by {
      GrownTail(HistoryOf(b, hid), plan);
    }
    assert r.history == b.history[hid := r.history[hid]];
    r
  }

  /** `get_meal_history` */
  function GetMealHistory(b: Bank, hid: string, limit: int := DefaultHistoryLimit): (r: seq<Plan>)
    ensures |r| <= |HistoryOf(b, hid)| && r == HistoryOf(b, hid)[|HistoryOf(b, hid)| - |r|..]
    ensures limit >= 1 ==> |r| == MinNat(limit, |HistoryOf(b, hid)|)
    ensures limit == 0 ==> r == HistoryOf(b, hid)
  {
    RecentTail(HistoryOf(b, hid), limit)
  }

  /** The plan just stored is the newest one returned. */
  lemma StoredPlanIsNewest(b: Bank, hid: string, plan: Plan)
    ensures GetMealHistory(StoreMealPlan(b, hid, plan), hid, 1) == [plan]
  {
  }

  /** Every operation keeps the bank valid. */
  lemma OperationsKeepValid(b: Bank, hid: string, member: string, dish: Dish, ingredient: string,
                            prefs: map<string, string>, plan: Plan)
    requires Valid(b)
    ensures Valid(AddMemberFavorite(b, hid, member, dish))
    ensures Valid(AddMemberDislike(b, hid, member, ingredient))
    ensures Valid(UpdateMemberPreferences(b, hid, member, prefs))
    ensures Valid(StoreMealPlan(b, hid, plan))
  {
    AddFavoriteKeepsValid(b, hid, member, dish);
    AddDislikeKeepsValid(b, hid, member, ingredient);
    UpdatePreferencesKeepsValid(b, hid, member, prefs);
    StoreKeepsValid(b, hid, plan);
  }

  lemma UpdatePreferencesKeepsValid(b: Bank, hid: string, member: string, prefs: map<string, string>)
    requires Valid(b)
    ensures Valid(UpdateMemberPreferences(b, hid, member, prefs))
  {
    var r := UpdateMemberPreferences(b, hid, member, prefs);
    assert r.favorites == b.favorites && r.dislikes == b.dislikes && r.history == b.history;
  }

  lemma StoreKeepsValid(b: Bank, hid: string, plan: Plan)
    requires Valid(b)
    ensures Valid(StoreMealPlan(b, hid, plan))
  {
    var r := StoreMealPlan(b, hid, plan);
    assert |r.history[hid]| <= MaxHistory;
    forall h | h in r.history ensures |r.history[h]| <= MaxHistory {
      if h != hid {
        assert r.history[h] == b.history[h];
      }
    }
    assert r.favorites == b.favorites && r.dislikes == b.dislikes;
  }

  lemma AddFavoriteKeepsValid(b: Bank, hid: string, member: string, dish: Dish)
    requires Valid(b)
    ensures Valid(AddMemberFavorite(b, hid, member, dish))
  {
    var list := GetMemberFavorites(b, hid, member);
    if !HasName(list, dish.name) {
      var list' := list + [Favorite(dish, member)];
      assert DistinctNames(list') by {
        if hid in b.favorites && member in b.favorites[hid] {
          assert list == b.favorites[hid][member];
        }
      }
      SetMemberValueKeeps(b.favorites, hid, member, list', DistinctNames);
    }
  }

  lemma AddDislikeKeepsValid(b: Bank, hid: string, member: string, ingredient: string)
    requires Valid(b)
    ensures Valid(AddMemberDislike(b, hid, member, ingredient))
  {
    var list := GetMemberDislikes(b, hid, member);
    if !HasIgnoringCase(list, ingredient) {
      var list' := list + [ingredient];
      assert DistinctIgnoringCase(list') by {
        if hid in b.dislikes && member in b.dislikes[hid] {
          assert list == b.dislikes[hid][member];
        }
      }
      SetMemberValueKeeps(b.dislikes, hid, member, list', DistinctIgnoringCase);
    }
  }

  datatype MemoryContext = MemoryContext(
    favorites: map<string, seq<Favorite>>, dislikes: map<string, seq<string>>,
    allDislikes: set<string>, preferences: map<string, map<string, string>>, recentPlans: seq<Plan>)

  /** `get_memory_context`: everything known about a household, with its
      three most recent plans. */
  function GetMemoryContext(b: Bank, hid: string): (r: MemoryContext)
    ensures |r.recentPlans| == MinNat(3, |HistoryOf(b, hid)|)
    ensures r.recentPlans == HistoryOf(b, hid)[|HistoryOf(b, hid)| - |r.recentPlans|..]
    ensures forall n :: n in r.dislikes ==> (set x | x in r.dislikes[n]) <= r.allDislikes
  {
    MemoryContext(GetAllMemberFavorites(b, hid), GetAllMemberDislikes(b, hid), GetHouseholdDislikes(b, hid),
      GetAllMemberPreferences(b, hid), GetMealHistory(b, hid, 3))
  }

  datatype MemberSummary = MemberSummary(
    name: string, favorites: seq<Favorite>, dislikes: seq<string>, preferences: map<string, string>)

  /** `get_member_profile_summary` */
  function GetMemberProfileSummary(b: Bank, hid: string, member: string): (r: MemberSummary)
    ensures r.name == member
    ensures hid !in b.favorites ==> r.favorites == []
    ensures hid !in b.dislikes ==> r.dislikes == []
    ensures hid !in b.preferences ==> r.preferences == map[]
  {
    MemberSummary(member, GetMemberFavorites(b, hid, member), GetMemberDislikes(b, hid, member),
      GetMemberPreferences(b, hid, member))
  }

  /** A member's summary reflects a favourite and a dislike just added. */
  lemma SummaryReflectsAdds(b: Bank, hid: string, member: string, dish: Dish, ingredient: string)
    ensures var r := AddMemberDislike(AddMemberFavorite(b, hid, member, dish), hid, member, ingredient);
      var s := GetMemberProfileSummary(r, hid, member);
      HasName(s.favorites, dish.name) && HasIgnoringCase(s.dislikes, ingredient)
  {
  }
}

=== FILE: numbers.dfy ===
/** Arithmetic the tools share: Python's `round(x, n)`, the `max(0, min(100, x))`
    clamp, sums over sequences, and `max`/`min` of a non-empty list. */
module Numbers {

  /** The multiplier of `round(x, places)` for the one and two decimal places
      the tools round to. */
  function Scale(places: nat): real
    requires 1 <= places <= 2
  {
    if places == 1 then 10.0 else 100.0
  }

  /** `round(x, places)` on exact reals, rounding halves upwards. */
  function Round(x: real, places: nat): real
    requires 1 <= places <= 2
  {
    var s := Scale(places);
    ((x * s + 0.5).Floor as real) / s
  }

  lemma RoundMonotone(x: real, y: real, places: nat)
    requires 1 <= places <= 2
    requires x <= y
    ensures Round(x, places) <= Round(y, places)
  {
    if places == 1 {
      assert (x * 10.0 + 0.5).Floor <= (y * 10.0 + 0.5).Floor;
    } else {
      assert (x * 100.0 + 0.5).Floor <= (y * 100.0 + 0.5).Floor;
    }
  }

  lemma RoundKeepsSign(x: real, places: nat)
    requires 1 <= places <= 2
    ensures x >= 0.0 ==> Round(x, places) >= 0.0
  {
    if x >= 0.0 {
      RoundMonotone(0.0, x, places);
    }
  }

  /** Scaling by a non-negative factor keeps order. */
  lemma MulMonotone(a: real, b: real, p: real)
    requires a <= b && p >= 0.0
    ensures a * p <= b * p
  {
  }

  /** Dividing by a positive number keeps order. */
  lemma DivMonotone(x: real, y: real, d: real)
    requires d > 0.0 && x <= y
    ensures x / d <= y / d
  {
    MulMonotone(x, y, 1.0 / d);
    assert x / d == x * (1.0 / d);
    assert y / d == y * (1.0 / d);
  }

  lemma MulNonNegative(a: real, p: real)
    ensures a >= 0.0 && p >= 0.0 ==> a * p >= 0.0
  {
  }

  /** A whole number is already rounded. */
  lemma RoundOfWhole(n: int, places: nat)
    requires 1 <= places <= 2
    ensures Round(n as real, places) == n as real
  {
    if places == 1 {
      assert (n as real * 10.0 + 0.5).Floor == n * 10;
    } else {
      assert (n as real * 100.0 + 0.5).Floor == n * 100;
    }
  }

  /** Rounding moves a value by at most half a unit of the last kept place. */
  lemma RoundNear(x: real, places: nat)
    requires 1 <= places <= 2
    ensures x - 0.5 / Scale(places) < Round(x, places) <= x + 0.5 / Scale(places)
  {
  }

  /** A whole number of units of the last kept place. */
  predicate OnGrid(r: real, places: nat)
    requires 1 <= places <= 2
  {
    (r * Scale(places)).Floor as real == r * Scale(places)
  }

  /** `r` is a value with `places` decimals that lies within half a unit of `x`,
      ties going to the upper neighbour. */
  predicate Approximates(r: real, x: real, places: nat)
    requires 1 <= places <= 2
  {
    OnGrid(r, places) && x - 0.5 / Scale(places) < r <= x + 0.5 / Scale(places)
  }

  /** Rounding yields a grid value within half a unit. */
  lemma RoundApproximates(x: real, places: nat)
    requires 1 <= places <= 2
    ensures Approximates(Round(x, places), x, places)
  {
    var s := Scale(places);
    var n := (x * s + 0.5).Floor;
    assert Round(x, places) * s == n as real;
    RoundNear(x, places);
  }

  /** Among grid values, the rounding of `x` is the only one within half a
      unit of `x`: the rounding is characterised without `Floor`. */
  lemma RoundIsNearestGridPoint(x: real, r: real, places: nat)
    requires 1 <= places <= 2
    requires OnGrid(r, places)
    ensures r == Round(x, places) <==> Approximates(r, x, places)
  {
    var s := Scale(places);
    RoundApproximates(x, places);
    if Approximates(r, x, places) {
      var n := (r * Scale(places)).Floor;
      assert n as real == r * s by {
        assert OnGrid(r, places);
      }
      assert x * s - 0.5 < r * s <= x * s + 0.5 by {
        assert (x - 0.5 / s) * s == x * s - 0.5;
        assert (x + 0.5 / s) * s == x * s + 0.5;
      }
      assert (x * s + 0.5).Floor == n;
      assert Round(x, places) == n as real / s;
    }
  }

  /** A value between two whole numbers stays between them once rounded. */
  lemma RoundBetweenWhole(x: real, lo: int, hi: int, places: nat)
    requires 1 <= places <= 2
    requires lo as real <= x <= hi as real
    ensures lo as real <= Round(x, places) <= hi as real
  {
    RoundMonotone(lo as real, x, places);
    RoundMonotone(x, hi as real, places);
    RoundOfWhole(lo, places);
    RoundOfWhole(hi, places);
  }

  /** A value already rounded to one place is unchanged by rounding to two. */
  lemma RoundTwiceFixed(x: real)
    ensures Round(Round(x, 1), 2) == Round(x, 1)
  {
    var n := (x * 10.0 + 0.5).Floor;
    assert Round(x, 1) == n as real / 10.0;
    assert (n as real / 10.0) * 100.0 + 0.5 == (10 * n) as real + 0.5;
    assert ((n as real / 10.0) * 100.0 + 0.5).Floor == 10 * n;
  }

  /** A value with at most one decimal place is unchanged by rounding to one. */
  lemma RoundOfTenths(n: int)
    ensures Round(n as real / 10.0, 1) == n as real / 10.0
  {
    var x := n as real / 10.0;
    assert x * 10.0 == n as real;
    assert (x * 10.0 + 0.5).Floor == n;
  }

  /** `max(lo, min(hi, x))` */
  function Clamp(x: real, lo: real, hi: real): (r: real)
    requires lo <= hi
    ensures lo <= r <= hi
    ensures lo <= x <= hi ==> r == x
    ensures x < lo ==> r == lo
    ensures hi < x ==> r == hi
  {
    if hi < x then hi else if x < lo then lo else x
  }

  /** Sum of `f` over a sequence, in order. */
  function SumOf<T>(xs: seq<T>, f: T -> real): real
    decreases |xs|
  {
    if |xs| == 0 then 0.0 else f(xs[0]) + SumOf(xs[1..], f)
  }

  lemma {:induction false} SumOfAppend<T>(a: seq<T>, b: seq<T>, f: T -> real)
    ensures SumOf(a + b, f) == SumOf(a, f) + SumOf(b, f)
    decreases |a|
  {
    if |a| > 0 {
      assert (a + b)[0] == a[0];
      assert (a + b)[1..] == a[1..] + b;
      SumOfAppend(a[1..], b, f);
      assert SumOf(a + b, f) == f(a[0]) + SumOf(a[1..] + b, f);
    } else {
      assert a + b == b;
    }
  }

  lemma SumOfOne<T>(x: T, f: T -> real)
    ensures SumOf([x], f) == f(x)
  {
    assert [x][1..] == [];
  }

  /** Taking one term out of a sum. */
  lemma SumOfRemove<T>(b: seq<T>, j: nat, f: T -> real)
    requires j < |b|
    ensures SumOf(b, f) == f(b[j]) + SumOf(b[..j] + b[j + 1..], f)
  {
    assert b == b[..j] + ([b[j]] + b[j + 1..]);
    SumOfAppend(b[..j], [b[j]] + b[j + 1..], f);
    SumOfAppend([b[j]], b[j + 1..], f);
    SumOfAppend(b[..j], b[j + 1..], f);
    SumOfOne(b[j], f);
  }

  /** Taking one element out of a sequence takes it out of its multiset. */
  lemma MultisetRemove<T>(b: seq<T>, j: nat)
    requires j < |b|
    ensures multiset(b[..j] + b[j + 1..]) == multiset(b) - multiset{b[j]}
  {
    assert b == b[..j] + [b[j]] + b[j + 1..];
    assert multiset(b) == multiset(b[..j]) + multiset{b[j]} + multiset(b[j + 1..]);
  }

  /** The sum does not depend on the order of the terms. */
  lemma {:induction false} SumOfPermutation<T>(a: seq<T>, b: seq<T>, f: T -> real)
    requires multiset(a) == multiset(b)
    ensures SumOf(a, f) == SumOf(b, f)
    decreases |a|
  {
    if |a| == 0 {
      assert |b| == |multiset(b)| == 0;
    } else {
      var x := a[0];
      assert x in b by {
        assert x in multiset(a);
      }
      var j :| 0 <= j < |b| && b[j] == x;
      var rest := b[..j] + b[j + 1..];
      assert multiset(a[1..]) == multiset(rest) by {
        MultisetRemove(b, j);
        assert a == [x] + a[1..];
        assert multiset(a) == multiset{x} + multiset(a[1..]);
      }
      SumOfPermutation(a[1..], rest, f);
      SumOfRemove(b, j, f);
    }
  }

  /** Sum of a list of whole numbers (Python `sum`). */
  function IntSum(xs: seq<int>): int
    decreases |xs|
  {
    if |xs| == 0 then 0 else xs[0] + IntSum(xs[1..])
  }

  lemma {:induction false} IntSumAppend(a: seq<int>, b: seq<int>)
    ensures IntSum(a + b) == IntSum(a) + IntSum(b)
    decreases |a|
  {
    if |a| > 0 {
      assert (a + b)[0] == a[0];
      assert (a + b)[1..] == a[1..] + b;
      IntSumAppend(a[1..], b);
      assert IntSum(a + b) == a[0] + IntSum(a[1..] + b);
    } else {
      assert a + b == b;
    }
  }

  /** Python `max` of a non-empty list. */
  function MaxOf(xs: seq<int>): (m: int)
    requires |xs| > 0
    ensures m in xs
    ensures forall i :: 0 <= i < |xs| ==> xs[i] <= m
    decreases |xs|
  {
    if |xs| == 1 then xs[0]
    else
      var rest := MaxOf(xs[1..]);
      if xs[0] >= rest then xs[0] else rest
  }

  /** Python `min` of a non-empty list. */
  function MinOf(xs: seq<int>): (m: int)
    requires |xs| > 0
    ensures m in xs
    ensures forall i :: 0 <= i < |xs| ==> m <= xs[i]
    decreases |xs|
  {
    if |xs| == 1 then xs[0]
    else
      var rest := MinOf(xs[1..]);
      if xs[0] <= rest then xs[0] else rest
  }

  /** Every list of `n` values between `lo` and `hi` sums to between `n*lo` and `n*hi`. */
  lemma {:induction false} IntSumBetween(xs: seq<int>, lo: int, hi: int)
    requires forall i :: 0 <= i < |xs| ==> lo <= xs[i] <= hi
    ensures |xs| * lo <= IntSum(xs) <= |xs| * hi
    decreases |xs|
  {
    if |xs| > 0 {
      IntSumBetween(xs[1..], lo, hi);
      assert |xs| * lo == lo + (|xs| - 1) * lo;
      assert |xs| * hi == hi + (|xs| - 1) * hi;
    }
  }

  lemma MulAsReal(a: int, b: int)
    ensures (a * b) as real == (a as real) * (b as real)
  {
  }

  lemma DivBetween(t: real, n: real, lo: real, hi: real)
    requires n > 0.0
    requires n * lo <= t <= n * hi
    ensures lo <= t / n <= hi
  {
    assert (t / n) * n == t;
  }

  /** The mean of `n` whole numbers between `lo` and `hi` lies between them. */
  lemma MeanBetween(xs: seq<int>, lo: int, hi: int)
    requires |xs| > 0
    requires forall i :: 0 <= i < |xs| ==> lo <= xs[i] <= hi
    ensures lo as real <= (IntSum(xs) as real) / (|xs| as real) <= hi as real
  {
    var n := |xs|;
    var t := IntSum(xs);
    IntSumBetween(xs, lo, hi);
    MulAsReal(n, lo);
    MulAsReal(n, hi);
    assert (n as real) * (lo as real) <= t as real;
    assert t as real <= (n as real) * (hi as real);
    DivBetween(t as real, n as real, lo as real, hi as real);
  }

  /** The mean of a non-empty list lies between its minimum and its maximum. */
  lemma MeanBetweenMinMax(xs: seq<int>)
    requires |xs| > 0
    ensures MinOf(xs) as real <= (IntSum(xs) as real) / (|xs| as real) <= MaxOf(xs) as real
  {
    MeanBetween(xs, MinOf(xs), MaxOf(xs));
  }
}

/** Python's `xs[-limit:] if len(xs) > limit else xs`, the "most recent entries"
    idiom of the memory bank and the session manager. */
module Slices {

  function MinNat(a: nat, b: nat): nat { if a <= b then a else b }

  /** Python's normalisation of a slice start against a length `n`. */
  function SliceStart(n: nat, start: int): (k: nat)
    ensures k <= n
  {
    if start < 0 then (if start + n < 0 then 0 else start + n)
    else if start > n then n else start
  }

  function RecentTail<T>(xs: seq<T>, limit: int): (r: seq<T>)
    ensures |r| <= |xs| && r == xs[|xs| - |r|..]
    ensures limit >= 1 ==> |r| == MinNat(limit, |xs|)
    ensures limit == 0 ==> r == xs
    ensures limit < 0 ==> |r| == |xs| - MinNat(-limit, |xs|)
  {
    if |xs| > limit then xs[SliceStart(|xs|, -limit)..] else xs
  }
}

=== FILE: nutrition.dfy ===
/** The nutrition tools: the per-100 g table, one ingredient's nutrients at an
    amount, and a recipe's nutrients per serving. */
module Nutrition {
  import opened Outcomes
  import opened Text
  import opened Numbers
  import opened Plans

  /** Calories and grams of protein, carbohydrate, fat and fibre. */
  datatype Macros = Macros(calories: real, protein: real, carbs: real, fat: real, fiber: real)

  /** Nutrients per 100 g, keyed by lower-cased ingredient name. */
  const NutritionDb: map<string, Macros> := map[
    "chicken breast" := Macros(165.0, 31.0, 0.0, 3.6, 0.0),
    "brown rice" := Macros(112.0, 2.6, 24.0, 0.9, 1.8),
    "broccoli" := Macros(34.0, 2.8, 7.0, 0.4, 2.6),
    "salmon" := Macros(206.0, 22.0, 0.0, 13.0, 0.0),
    "quinoa" := Macros(120.0, 4.4, 21.0, 1.9, 2.8),
    "spinach" := Macros(23.0, 2.9, 3.6, 0.4, 2.2),
    "sweet potato" := Macros(86.0, 1.6, 20.0, 0.1, 3.0),
    "eggs" := Macros(155.0, 13.0, 1.1, 11.0, 0.0),
    "olive oil" := Macros(884.0, 0.0, 0.0, 100.0, 0.0),
    "tofu" := Macros(76.0, 8.0, 1.9, 4.8, 0.3)
  ]

  /** The fixed values reported for an ingredient missing from the table,
      whatever the amount. */
  const EstimatedMacros: Macros := Macros(100.0, 5.0, 15.0, 3.0, 2.0)

  predicate NonNegative(m: Macros) {
    m.calories >= 0.0 && m.protein >= 0.0 && m.carbs >= 0.0 && m.fat >= 0.0 && m.fiber >= 0.0
  }

  /** `estimated` stands for the `note` key the tools add on a table miss. */
  datatype NutritionFacts = NutritionFacts(ingredient: string, amountGrams: real, macros: Macros, estimated: bool)

  function ScaleField(perHundred: real, amountGrams: real): real {
    Round(perHundred * (amountGrams / 100.0), 1)
  }

  /** A table row scaled to an amount, each value rounded to one place. */
  function Scaled(base: Macros, amountGrams: real): Macros {
    Macros(ScaleField(base.calories, amountGrams), ScaleField(base.protein, amountGrams),
           ScaleField(base.carbs, amountGrams), ScaleField(base.fat, amountGrams),
           ScaleField(base.fiber, amountGrams))
  }

  /** A row with every value multiplied by `f`, without rounding. */
  function Times(base: Macros, f: real): Macros {
    Macros(base.calories * f, base.protein * f, base.carbs * f, base.fat * f, base.fiber * f)
  }

  /** Every value of `m` is the rounding of the matching value of `exact`. */
  predicate ApproximatesAll(m: Macros, exact: Macros, places: nat)
    requires 1 <= places <= 2
  {
    && Approximates(m.calories, exact.calories, places)
    && Approximates(m.protein, exact.protein, places)
    && Approximates(m.carbs, exact.carbs, places)
    && Approximates(m.fat, exact.fat, places)
    && Approximates(m.fiber, exact.fiber, places)
  }

  lemma TableNonNegative()
    ensures forall k :: k in NutritionDb ==> NonNegative(NutritionDb[k])
  {
  }

  lemma ScaleFieldMonotone(v: real, x: real, y: real)
    requires v >= 0.0 && x <= y
    ensures ScaleField(v, x) <= ScaleField(v, y)
    ensures x >= 0.0 ==> ScaleField(v, x) >= 0.0
  {
    MulMonotone(x / 100.0, y / 100.0, v);
    RoundMonotone(v * (x / 100.0), v * (y / 100.0), 1);
    MulNonNegative(x / 100.0, v);
    RoundKeepsSign(v * (x / 100.0), 1);
  }

  /** `nutrition_lookup`: a table hit scales the row to the amount; a miss
      reports the fixed estimate. Names match the table ignoring case. */
  function NutritionLookup(ingredient: string, amountGrams: real := DefaultAmountGrams): (r: NutritionFacts)
    ensures r.ingredient == ingredient && r.amountGrams == amountGrams
    ensures r.estimated <==> Lower(ingredient) !in NutritionDb
    ensures r.estimated ==> r.macros == EstimatedMacros
    ensures !r.estimated ==> r.macros == Scaled(NutritionDb[Lower(ingredient)], amountGrams)
    ensures amountGrams >= 0.0 ==> NonNegative(r.macros)
  {
    var key := Lower(ingredient);
    if key in NutritionDb then
      var base := NutritionDb[key];
      TableNonNegative();
      ScaleFieldMonotone(base.calories, amountGrams, amountGrams);
      ScaleFieldMonotone(base.protein, amountGrams, amountGrams);
      ScaleFieldMonotone(base.carbs, amountGrams, amountGrams);
      ScaleFieldMonotone(base.fat, amountGrams, amountGrams);
      ScaleFieldMonotone(base.fiber, amountGrams, amountGrams);
      NutritionFacts(ingredient, amountGrams, Scaled(base, amountGrams), false)
    else
      NutritionFacts(ingredient, amountGrams, EstimatedMacros, true)
  }

  /** A table hit reports, for each value, the row's value times
      `amountGrams / 100` rounded to one place. */
  lemma LookupApproximatesScaledRow(ingredient: string, amountGrams: real)
    requires Lower(ingredient) in NutritionDb
    ensures ApproximatesAll(NutritionLookup(ingredient, amountGrams).macros,
                            Times(NutritionDb[Lower(ingredient)], amountGrams / 100.0), 1)
  {
    ScaledApproximates(NutritionDb[Lower(ingredient)], amountGrams);
  }

  lemma ScaledApproximates(base: Macros, amountGrams: real)
    ensures ApproximatesAll(Scaled(base, amountGrams), Times(base, amountGrams / 100.0), 1)
  {
    ScaleFieldApproximates(base.calories, amountGrams);
    ScaleFieldApproximates(base.protein, amountGrams);
    ScaleFieldApproximates(base.carbs, amountGrams);
    ScaleFieldApproximates(base.fat, amountGrams);
    ScaleFieldApproximates(base.fiber, amountGrams);
  }

  lemma ScaleFieldApproximates(perHundred: real, amountGrams: real)
    ensures Approximates(ScaleField(perHundred, amountGrams), perHundred * (amountGrams / 100.0), 1)
  {
    RoundApproximates(perHundred * (amountGrams / 100.0), 1);
  }

  /** Without an amount the lookup is for 100 g, which reports a known
      ingredient's table row unchanged. */
  lemma DefaultAmountIsTableRow(ingredient: string)
    requires Lower(ingredient) in NutritionDb
    ensures NutritionLookup(ingredient).amountGrams == 100.0
    ensures NutritionLookup(ingredient).macros == NutritionDb[Lower(ingredient)]
  {
    LookupOfHundredGrams(ingredient);
  }

  /** Names that differ only in case have the same nutrients. */
  lemma LookupIgnoresCase(a: string, b: string, amountGrams: real)
    requires Lower(a) == Lower(b)
    ensures NutritionLookup(a, amountGrams).macros == NutritionLookup(b, amountGrams).macros
    ensures NutritionLookup(a, amountGrams).estimated == NutritionLookup(b, amountGrams).estimated
  {
  }

  /** More of a known ingredient never has fewer nutrients. */
  lemma LookupMonotone(ingredient: string, x: real, y: real)
    requires Lower(ingredient) in NutritionDb && x <= y
    ensures var m := NutritionLookup(ingredient, x).macros;
      var n := NutritionLookup(ingredient, y).macros;
      m.calories <= n.calories && m.protein <= n.protein && m.carbs <= n.carbs
      && m.fat <= n.fat && m.fiber <= n.fiber
  {
    var base := NutritionDb[Lower(ingredient)];
    TableNonNegative();
    ScaleFieldMonotone(base.calories, x, y);
    ScaleFieldMonotone(base.protein, x, y);
    ScaleFieldMonotone(base.carbs, x, y);
    ScaleFieldMonotone(base.fat, x, y);
    ScaleFieldMonotone(base.fiber, x, y);
  }

  /** An unknown ingredient reports the same estimate at every amount. */
  lemma EstimateIgnoresAmount(ingredient: string, x: real, y: real)
    requires Lower(ingredient) !in NutritionDb
    ensures NutritionLookup(ingredient, x).macros == NutritionLookup(ingredient, y).macros == EstimatedMacros
  {
  }

  /** A row whose values have at most one decimal place is its own scaling to 100 g. */
  lemma ScaledHundred(m: Macros, c: int, p: int, cb: int, f: int, fi: int)
    requires m == Macros(c as real / 10.0, p as real / 10.0, cb as real / 10.0, f as real / 10.0, fi as real / 10.0)
    ensures Scaled(m, 100.0) == m
  {
    RoundOfTenths(c);
    RoundOfTenths(p);
    RoundOfTenths(cb);
    RoundOfTenths(f);
    RoundOfTenths(fi);
  }

  /** At 100 g a known ingredient reports its table row unchanged. */
  lemma LookupOfHundredGrams(ingredient: string)
    requires Lower(ingredient) in NutritionDb
    ensures NutritionLookup(ingredient, 100.0).macros == NutritionDb[Lower(ingredient)]
  {
    var k := Lower(ingredient);
    var m := NutritionDb[k];
    if k == "chicken breast" { ScaledHundred(m, 1650, 310, 0, 36, 0); }
    else if k == "brown rice" { ScaledHundred(m, 1120, 26, 240, 9, 18); }
    else if k == "broccoli" { ScaledHundred(m, 340, 28, 70, 4, 26); }
    else if k == "salmon" { ScaledHundred(m, 2060, 220, 0, 130, 0); }
    else if k == "quinoa" { ScaledHundred(m, 1200, 44, 210, 19, 28); }
    else if k == "spinach" { ScaledHundred(m, 230, 29, 36, 4, 22); }
    else if k == "sweet potato" { ScaledHundred(m, 860, 16, 200, 1, 30); }
    else if k == "eggs" { ScaledHundred(m, 1550, 130, 11, 110, 0); }
    else if k == "olive oil" { ScaledHundred(m, 8840, 0, 0, 1000, 0); }
    else { ScaledHundred(m, 760, 80, 19, 48, 3); }
  }

  /** 200 g of salmon has twice the table calories. */
  lemma SalmonExample()
    ensures NutritionLookup("Salmon", 200.0).macros.calories == 412.0
    ensures !NutritionLookup("Salmon", 200.0).estimated
  {
    assert Lower("Salmon") == "salmon";
    RoundOfTenths(4120);
  }

  const DefaultServings: int := 4

  /** The amount looked up when none is given. */
  const DefaultAmountGrams: real := 100.0

  datatype PerServing = PerServing(totals: Macros, servings: int)

  function LineMacros(l: Line): Macros {
    NutritionLookup(l.name, l.amount).macros
  }

  function CaloriesOf(l: Line): real { LineMacros(l).calories }
  function ProteinOf(l: Line): real { LineMacros(l).protein }
  function CarbsOf(l: Line): real { LineMacros(l).carbs }
  function FatOf(l: Line): real { LineMacros(l).fat }
  function FiberOf(l: Line): real { LineMacros(l).fiber }

  /** The recipe's totals: each nutrient summed over the rounded per-line values. */
  function RecipeTotals(ings: seq<Line>): Macros {
    Macros(SumOf(ings, CaloriesOf), SumOf(ings, ProteinOf), SumOf(ings, CarbsOf),
           SumOf(ings, FatOf), SumOf(ings, FiberOf))
  }

  function PerServingOf(m: Macros, servings: int): Macros
    requires servings != 0
  {
    var s := servings as real;
    Macros(Round(m.calories / s, 2), Round(m.protein / s, 2), Round(m.carbs / s, 2),
           Round(m.fat / s, 2), Round(m.fiber / s, 2))
  }

  /** `calculate_recipe_nutrition`. Zero servings makes the division raise
      ZeroDivisionError, which the tool does not catch. */
  function CalculateRecipeNutrition(input: Json<Recipe>): (r: Result<PerServing>)
    ensures input.Malformed? <==> r == Err(InvalidJson)
    ensures r == Err(DivisionByZero) <==> input.Parsed? && input.value.servings.GetOr(DefaultServings) == 0
    ensures r.Ok? ==> r.value.servings == input.value.servings.GetOr(DefaultServings)
    ensures r.Ok? && input.value.servings.None? ==> r.value.servings == 4
    ensures r.Ok? ==> r.value.totals == PerServingOf(RecipeTotals(input.value.ingredients), r.value.servings)
  {
    match input
    case Malformed => Err(InvalidJson)
    case Parsed(recipe) =>
      var servings := recipe.servings.GetOr(DefaultServings);
      if servings == 0 then Err(DivisionByZero)
      else Ok(PerServing(PerServingOf(RecipeTotals(recipe.ingredients), servings), servings))
  }

  /** Each value per serving is the recipe's summed value divided by the
      servings, rounded to two places. */
  lemma PerServingApproximatesShare(recipe: Recipe)
    requires recipe.servings.GetOr(DefaultServings) != 0
    ensures var ings := recipe.ingredients;
      var n := recipe.servings.GetOr(DefaultServings) as real;
      ApproximatesAll(CalculateRecipeNutrition(Parsed(recipe)).value.totals,
        Macros(SumOf(ings, CaloriesOf) / n, SumOf(ings, ProteinOf) / n, SumOf(ings, CarbsOf) / n,
               SumOf(ings, FatOf) / n, SumOf(ings, FiberOf) / n), 2)
  {
    var t := RecipeTotals(recipe.ingredients);
    var n := recipe.servings.GetOr(DefaultServings) as real;
    RoundApproximates(t.calories / n, 2);
    RoundApproximates(t.protein / n, 2);
    RoundApproximates(t.carbs / n, 2);
    RoundApproximates(t.fat / n, 2);
    RoundApproximates(t.fiber / n, 2);
  }

  /** The order of the ingredient lines does not matter. */
  lemma RecipeOrderIndependent(a: seq<Line>, b: seq<Line>, servings: Option<int>)
    requires multiset(a) == multiset(b)
    ensures CalculateRecipeNutrition(Parsed(Recipe(a, servings))) == CalculateRecipeNutrition(Parsed(Recipe(b, servings)))
  {
    SumOfPermutation(a, b, CaloriesOf);
    SumOfPermutation(a, b, ProteinOf);
    SumOfPermutation(a, b, CarbsOf);
    SumOfPermutation(a, b, FatOf);
    SumOfPermutation(a, b, FiberOf);
  }

  /** Appending an ingredient adds its nutrients to the totals. */
  lemma RecipeTotalsAppend(a: seq<Line>, l: Line)
    ensures var t := RecipeTotals(a + [l]);
      var u := RecipeTotals(a);
      var m := LineMacros(l);
      t == Macros(u.calories + m.calories, u.protein + m.protein, u.carbs + m.carbs,
                  u.fat + m.fat, u.fiber + m.fiber)
  {
    SumOfAppend(a, [l], CaloriesOf);
    SumOfAppend(a, [l], ProteinOf);
    SumOfAppend(a, [l], CarbsOf);
    SumOfAppend(a, [l], FatOf);
    SumOfAppend(a, [l], FiberOf);
  }

  /** A value that is a whole number of cents, so rounding to two places keeps it. */
  predicate CentFixed(v: real) {
    Round(v, 2) == v
  }

  predicate OnCentGrid(m: Macros) {
    CentFixed(m.calories) && CentFixed(m.protein) && CentFixed(m.carbs) && CentFixed(m.fat) && CentFixed(m.fiber)
  }

  /** A value scaled and rounded to one place is on the cent grid. */
  lemma ScaleFieldCentFixed(perHundred: real, amountGrams: real)
    ensures CentFixed(ScaleField(perHundred, amountGrams))
  {
    RoundTwiceFixed(perHundred * (amountGrams / 100.0));
  }

  /** A scaled row is rounded to one place, hence on the cent grid. */
  lemma ScaledOnCentGrid(base: Macros, amountGrams: real)
    ensures OnCentGrid(Scaled(base, amountGrams))
  {
    ScaleFieldCentFixed(base.calories, amountGrams);
    ScaleFieldCentFixed(base.protein, amountGrams);
    ScaleFieldCentFixed(base.carbs, amountGrams);
    ScaleFieldCentFixed(base.fat, amountGrams);
    ScaleFieldCentFixed(base.fiber, amountGrams);
  }

  lemma EstimateOnCentGrid()
    ensures OnCentGrid(EstimatedMacros)
  {
    RoundOfWhole(100, 2);
    RoundOfWhole(5, 2);
    RoundOfWhole(15, 2);
    RoundOfWhole(3, 2);
    RoundOfWhole(2, 2);
  }

  /** Every looked-up line is on the cent grid. */
  lemma LineMacrosOnCentGrid(l: Line)
    ensures OnCentGrid(LineMacros(l))
  {
    var key := Lower(l.name);
    if key in NutritionDb {
      assert LineMacros(l) == Scaled(NutritionDb[key], l.amount);
      ScaledOnCentGrid(NutritionDb[key], l.amount);
    } else {
      assert LineMacros(l) == EstimatedMacros;
      EstimateOnCentGrid();
    }
  }

  /** Dividing cent-grid totals by one serving changes nothing. */
  lemma PerServingOfOne(m: Macros)
    requires OnCentGrid(m)
    ensures PerServingOf(m, 1) == m
  {
    assert m.calories / 1.0 == m.calories && m.protein / 1.0 == m.protein && m.carbs / 1.0 == m.carbs;
    assert m.fat / 1.0 == m.fat && m.fiber / 1.0 == m.fiber;
  }

  /** A one-serving recipe of one ingredient reports that ingredient's lookup. */
  lemma SingleServingOfOne(l: Line)
    ensures CalculateRecipeNutrition(Parsed(Recipe([l], Some(1)))) == Ok(PerServing(LineMacros(l), 1))
  {
    SumOfOne(l, CaloriesOf);
    SumOfOne(l, ProteinOf);
    SumOfOne(l, CarbsOf);
    SumOfOne(l, FatOf);
    SumOfOne(l, FiberOf);
    assert RecipeTotals([l]) == LineMacros(l);
    LineMacrosOnCentGrid(l);
    PerServingOfOne(LineMacros(l));
  }

  /** A recipe without ingredients has no nutrients per serving. */
  lemma EmptyRecipe(servings: Option<int>)
    requires servings.GetOr(DefaultServings) != 0
    ensures CalculateRecipeNutrition(Parsed(Recipe([], servings)))
      == Ok(PerServing(Macros(0.0, 0.0, 0.0, 0.0, 0.0), servings.GetOr(DefaultServings)))
  {
    RoundOfWhole(0, 2);
  }
}

=== FILE: outcomes.dfy ===
/** Optional values and the error results the tools hand back instead of raising. */
module Outcomes {

  /** A value that may be absent, as a missing key in a parsed JSON object. */
  datatype Option<+T> = None | Some(value: T) {
    function GetOr(default: T): T {
      match this
      case Some(v) => v
      case None => default
    }
  }

  /** Why a tool produced no report.
      InvalidJson: the input text did not parse (the tools return an `error` dict).
      DivisionByZero: the Python code divides by zero and raises (nothing catches it).
      HouseholdNotFound: the household id is not in the profile store. */
  datatype Error = InvalidJson | DivisionByZero | HouseholdNotFound

  datatype Result<+T> = Ok(value: T) | Err(error: Error)

  /** A JSON argument after `json.loads`: either the parsed structure or a parse failure. */
  datatype Json<+T> = Parsed(value: T) | Malformed
}

=== FILE: planning_utils.dfy ===
/** The plain utilities that work on an already parsed plan: schedule
    optimisation with a score and suggestions, the grocery list with a budget
    check and tips, and the stand-alone optimisation score. */
module PlanningUtils {
  import opened Outcomes
  import opened Text
  import opened Numbers
  import opened Plans
  import opened Sorting
  import opened Costs
  import opened Shopping
  import opened Schedule

  /** `xs[:3]` */
  function FirstThree<T>(xs: seq<T>): (r: seq<T>)
    ensures |r| == MinThree(|xs|) && r == xs[..|r|]
  {
    if |xs| <= 3 then xs else xs[..3]
  }

  function MinThree(n: nat): nat { if n <= 3 then n else 3 }

  /** A suggestion of `optimize_schedule`; the texts are formatted from these values. */
  datatype Suggestion =
    | SimplerRecipes(averageMinutes: real)
    | BatchCook(items: seq<string>)

  datatype ScheduleStats = ScheduleStats(totalMinutes: int, averagePerDay: real, maxDay: int, withinLimit: bool)

  datatype ScheduleReport = ScheduleReport(
    stats: ScheduleStats, reused: seq<Tally>, score: real, suggestions: seq<Suggestion>)

  /** The unclamped score: 100, less 30 points for each limit's worth by which
      the average overshoots (pro rata), plus 15 times the share of reused names. */
  function RawScheduleScore(avg: real, limit: int, reusedCount: nat, uniqueCount: nat): real
    requires avg > limit as real ==> limit != 0
  {
    var penalty := if avg > limit as real then (avg - limit as real) / (limit as real) * 30.0 else 0.0;
    var ratio := if uniqueCount > 0 then (reusedCount as real) / (uniqueCount as real) else 0.0;
    100.0 - penalty + ratio * 15.0
  }

  /** The score of `optimize_schedule`. A zero limit exceeded by the average
      divides by zero, which the utility does not catch. */
  function ScheduleScore(avg: real, limit: int, reusedCount: nat, uniqueCount: nat): (r: Result<real>)
    ensures r == Err(DivisionByZero) <==> avg > limit as real && limit == 0
    ensures r.Ok? ==> 0.0 <= r.value <= 100.0
    ensures avg <= limit as real ==> r == Ok(100.0)
  {
    if avg > limit as real && limit == 0 then Err(DivisionByZero)
    else
      var raw := RawScheduleScore(avg, limit, reusedCount, uniqueCount);
      var clamped := Clamp(raw, 0.0, 100.0);
      RoundBetweenWhole(clamped, 0, 100, 1);
      if avg <= limit as real then
        assert (reusedCount as real) * 15.0 >= 0.0;
        assert raw >= 100.0;
        RoundOfWhole(100, 1);
        Ok(Round(clamped, 1))
      else
        Ok(Round(clamped, 1))
  }

  /** An average above a positive limit loses 30 points per limit's worth of
      overshoot; the share of reused names adds up to 15 points; the sum is
      held to [0, 100] and rounded to one place. */
  lemma ScheduleScoreOverLimit(avg: real, limit: int, reusedCount: nat, uniqueCount: nat)
    requires limit > 0 && avg > limit as real
    ensures var l := limit as real;
      var bonus := if uniqueCount > 0 then (reusedCount as real) / (uniqueCount as real) * 15.0 else 0.0;
      ScheduleScore(avg, limit, reusedCount, uniqueCount)
        == Ok(Round(Clamp(100.0 - (avg - l) / l * 30.0 + bonus, 0.0, 100.0), 1))
  {
  }

  /** Without reuse, the over-limit score is the penalty alone, stopping at 0. */
  lemma ScheduleScoreOverLimitNoReuse(avg: real, limit: int)
    requires limit > 0 && avg > limit as real
    ensures var v := 100.0 - 30.0 * (avg - limit as real) / limit as real;
      ScheduleScore(avg, limit, 0, 0) == Ok(Round(if v < 0.0 then 0.0 else v, 1))
  {
    var v := 100.0 - 30.0 * (avg - limit as real) / limit as real;
    assert RawScheduleScore(avg, limit, 0, 0) == v;
    assert (avg - limit as real) / limit as real > 0.0;
  }

  /** More reused names never lower the score. */
  lemma ScheduleScoreGrowsWithReuse(avg: real, limit: int, r1: nat, r2: nat, uniqueCount: nat)
    requires !(avg > limit as real && limit == 0)
    requires r1 <= r2
    ensures ScheduleScore(avg, limit, r1, uniqueCount).value <= ScheduleScore(avg, limit, r2, uniqueCount).value
  {
    var a := RawScheduleScore(avg, limit, r1, uniqueCount);
    var b := RawScheduleScore(avg, limit, r2, uniqueCount);
    if uniqueCount > 0 {
      DivMonotone(r1 as real, r2 as real, uniqueCount as real);
    }
    assert a <= b;
    RoundMonotone(Clamp(a, 0.0, 100.0), Clamp(b, 0.0, 100.0), 1);
  }

  /** Under a positive limit, a longer average never raises the score. */
  lemma ScheduleScoreFallsWithTime(a1: real, a2: real, limit: int, reusedCount: nat, uniqueCount: nat)
    requires limit > 0 && a1 <= a2
    ensures ScheduleScore(a2, limit, reusedCount, uniqueCount).value <= ScheduleScore(a1, limit, reusedCount, uniqueCount).value
  {
    var l := limit as real;
    var p1 := if a1 > l then (a1 - l) / l * 30.0 else 0.0;
    var p2 := if a2 > l then (a2 - l) / l * 30.0 else 0.0;
    assert p1 <= p2 by {
      if a1 > l {
        DivMonotone(a1 - l, a2 - l, l);
      } else if a2 > l {
        DivMonotone(0.0, a2 - l, l);
      }
    }
    var x := RawScheduleScore(a1, limit, reusedCount, uniqueCount);
    var y := RawScheduleScore(a2, limit, reusedCount, uniqueCount);
    assert y <= x;
    RoundMonotone(Clamp(y, 0.0, 100.0), Clamp(x, 0.0, 100.0), 1);
  }

  /** The suggestions: simpler recipes when the average overshoots, batch
      cooking of the first three recurring names when there are any. */
  function Suggestions(avg: real, within: bool, reused: seq<Tally>): (r: seq<Suggestion>)
    ensures SimplerRecipes(avg) in r <==> !within
    ensures (exists s :: s in r && s.BatchCook?) <==> |reused| > 0
    ensures forall s :: s in r && s.BatchCook? ==> s.items == FirstThree(Map(reused, TallyName))
    ensures |r| == (if within then 0 else 1) + (if |reused| > 0 then 1 else 0)
    ensures !within ==> r[0] == SimplerRecipes(avg)
    ensures |reused| > 0 ==> r[|r| - 1].BatchCook?
  {
    var time := if !within then [SimplerRecipes(avg)] else [];
    var batch := if |reused| > 0 then [BatchCook(FirstThree(Map(reused, TallyName)))] else [];
    assert forall s :: s in time + batch <==> s in time || s in batch;
    assert |reused| > 0 ==> batch[0] in time + batch;
    time + batch
  }

  /** `optimize_schedule`: the cooking statistics, the recurring ingredients,
      the score and the suggestions. */
  function OptimizeSchedule(plan: Plan, cookingTimeMax: int := DefaultCookingTimeMax): (r: Result<ScheduleReport>)
    ensures var avg := CookingStatsOf(plan).averagePerDay;
      r == Err(DivisionByZero) <==> avg > cookingTimeMax as real && cookingTimeMax == 0
    ensures r.Ok? ==> 0.0 <= r.value.score <= 100.0
    ensures r.Ok? ==> r.value.stats.totalMinutes == PlanMinutes(plan)
    ensures r.Ok? && |plan| > 0 ==> r.value.stats.averagePerDay == Round(PlanMinutes(plan) as real / |plan| as real, 1)
    ensures r.Ok? ==>
      && r.value.stats.averagePerDay == CookingStatsOf(plan).averagePerDay
      && r.value.stats.maxDay == CookingStatsOf(plan).maxDay
    ensures r.Ok? && |plan| == 0 ==> r.value.stats.averagePerDay == 0.0 && r.value.stats.maxDay == 0
    ensures r.Ok? && |plan| > 0 ==> forall i :: 0 <= i < |plan| ==> DayTime(plan[i]) <= r.value.stats.maxDay
    ensures r.Ok? ==> Ok(r.value.score) == ScheduleScore(r.value.stats.averagePerDay, cookingTimeMax,
      |r.value.reused|, |Keys(Lines(plan))|)
    ensures r.Ok? ==> (r.value.stats.withinLimit <==> r.value.stats.averagePerDay <= cookingTimeMax as real)
    ensures r.Ok? && r.value.stats.withinLimit ==> r.value.score == 100.0
    ensures r.Ok? ==> forall t :: t in r.value.reused <==>
      t.name in Keys(Lines(plan)) && t.count == CountFor(Lines(plan), t.name) && t.count >= 2
    ensures r.Ok? ==> (SimplerRecipes(r.value.stats.averagePerDay) in r.value.suggestions <==> !r.value.stats.withinLimit)
    ensures r.Ok? ==> ((exists s :: s in r.value.suggestions && s.BatchCook?) <==> |r.value.reused| > 0)
    ensures r.Ok? ==> r.value.suggestions == Suggestions(r.value.stats.averagePerDay, r.value.stats.withinLimit, r.value.reused)
  {
    var stats := CookingStatsOf(plan);
    var counts := IngredientCounts(Lines(plan));
    var reused := Recurring(counts);
    CountsAreExact(Lines(plan));
    AggregateIsExpectedPerKey(Lines(plan), KeepFirst);
    var score := ScheduleScore(stats.averagePerDay, cookingTimeMax, |reused|, |counts|);
    if score.Err? then Err(score.error)
    else
      var within := stats.averagePerDay <= cookingTimeMax as real;
      Ok(ScheduleReport(
        ScheduleStats(stats.totalMinutes, stats.averagePerDay, stats.maxDay, within),
        reused, score.value, Suggestions(stats.averagePerDay, within, reused)))
  }

  /** The batch-cooking suggestion names the first three ingredients that
      recur, in the order of their first line. */
  lemma BatchCookNamesRecurring(plan: Plan, cookingTimeMax: int)
    ensures var r := OptimizeSchedule(plan, cookingTimeMax);
      r.Ok? ==> forall s :: s in r.value.suggestions && s.BatchCook? ==>
        && 1 <= |s.items| <= 3
        && s.items == FirstThree(TwiceSeen(FirstSeen(Lines(plan)), Lines(plan)))
  {
    RecurringInFirstSeenOrder(Lines(plan));
  }

  /** The standalone score: a flat 20-point penalty above 45 minutes a day
      and up to 15 bonus points for reuse. */
  function CalculateOptimizationScore(averagePerDay: Option<real>, reuseCount: int, totalIngredients: int): (r: real)
    ensures 0.0 <= r <= 100.0
    ensures totalIngredients <= 0 ==> r == (if averagePerDay.GetOr(0.0) > 45.0 then 80.0 else 100.0)
    ensures averagePerDay.GetOr(0.0) <= 45.0 && reuseCount >= 0 && totalIngredients > 0 ==> r == 100.0
  {
    var penalty := if averagePerDay.GetOr(0.0) > 45.0 then 20.0 else 0.0;
    var bonus := if totalIngredients > 0 then (reuseCount as real) / (totalIngredients as real) * 15.0 else 0.0;
    var raw := 100.0 - penalty + bonus;
    var clamped := Clamp(raw, 0.0, 100.0);
    RoundBetweenWhole(clamped, 0, 100, 1);
    RoundOfWhole(80, 1);
    RoundOfWhole(100, 1);
    assert totalIngredients > 0 && reuseCount >= 0 ==> (reuseCount as real) / (totalIngredients as real) >= 0.0;
    Round(clamped, 1)
  }

  /** Above 45 minutes a day, with a reuse count between 0 and the number of
      ingredients, the score is 80 plus the reuse share of 15 points. */
  lemma OptimizationScoreOverTime(avg: real, reuseCount: int, totalIngredients: int)
    requires avg > 45.0 && 0 <= reuseCount <= totalIngredients && totalIngredients > 0
    ensures CalculateOptimizationScore(Some(avg), reuseCount, totalIngredients)
      == Round(80.0 + (reuseCount as real) / (totalIngredients as real) * 15.0, 1)
  {
    var t := totalIngredients as real;
    DivMonotone(0.0, reuseCount as real, t);
    DivMonotone(reuseCount as real, t, t);
    assert t / t == 1.0;
  }

  /** More reuse never lowers the stand-alone score. */
  lemma OptimizationScoreGrowsWithReuse(avg: Option<real>, r1: int, r2: int, totalIngredients: int)
    requires r1 <= r2
    ensures CalculateOptimizationScore(avg, r1, totalIngredients) <= CalculateOptimizationScore(avg, r2, totalIngredients)
  {
    var penalty := if avg.GetOr(0.0) > 45.0 then 20.0 else 0.0;
    var b1 := if totalIngredients > 0 then (r1 as real) / (totalIngredients as real) * 15.0 else 0.0;
    var b2 := if totalIngredients > 0 then (r2 as real) / (totalIngredients as real) * 15.0 else 0.0;
    if totalIngredients > 0 {
      DivMonotone(r1 as real, r2 as real, totalIngredients as real);
    }
    RoundMonotone(Clamp(100.0 - penalty + b1, 0.0, 100.0), Clamp(100.0 - penalty + b2, 0.0, 100.0), 1);
  }

  /** The two scores disagree on the same overshoot: an average of 90
      minutes against a 45-minute limit costs 30 points in `optimize_schedule`
      and 20 in `calculate_optimization_score`. */
  lemma PenaltiesDiffer()
    ensures ScheduleScore(90.0, 45, 0, 0) == Ok(70.0)
    ensures CalculateOptimizationScore(Some(90.0), 0, 0) == 80.0
  {
    assert RawScheduleScore(90.0, 45, 0, 0) == 70.0;
    RoundOfWhole(70, 1);
  }

  /** The daily cooking limit when none is given. */
  const DefaultCookingTimeMax: int := 45

  /** The weekly budget when none is given. */
  const DefaultBudget: real := 150.0

  /** The utility's default prices when no table is passed. */
  const DefaultCostDb: map<string, real> := map[
    "chicken breast" := 1.20, "brown rice" := 0.15, "broccoli" := 0.40,
    "salmon" := 2.50, "quinoa" := 0.80, "tofu" := 0.90
  ]

  /** A shopping tip; the texts are formatted from these values. */
  datatype Tip =
    | WithinBudget(remaining: real)
    | OverBudget(excess: real)
    | BuyInBulk(names: seq<string>)

  datatype GroceryPlan = GroceryPlan(
    items: seq<Item>, totalItems: nat, totalCost: real, budget: real, withinBudget: bool, tips: seq<Tip>)

  /** The summed unrounded cost of some lines at the given prices. */
  function LineBill(lines: seq<Line>, db: map<string, real>): real {
    SumOf(lines, l => LineRawCost(l, db))
  }

  /** The unrounded cost of a merged record at the given prices. */
  function EntryRawCost(e: Entry, db: map<string, real>): real {
    RawCharge(e.total, PriceOf(db, e.key))
  }

  /** The unrounded cost of one ingredient line at the given prices. */
  function LineRawCost(l: Line, db: map<string, real>): real {
    RawCharge(l.amount, PriceOf(db, Key(l)))
  }

  function PricedAt(e: Entry, db: map<string, real>): Item {
    Item(Title(e.key), Round(e.total, 1), e.unit, Round(EntryRawCost(e, db), 2), e.uses)
  }

  /** The merged records priced, in first-seen order. */
  function PricedList(lines: seq<Line>, db: map<string, real>): seq<Item> {
    Map(Aggregate(lines, KeepLast), e => PricedAt(e, db))
  }

  /** Names of the items bought for three or more meals, in list order. */
  function FrequentNames(items: seq<Item>): (r: seq<string>)
    ensures forall n :: n in r <==> exists i :: 0 <= i < |items| && items[i].usedIn >= 3 && items[i].name == n
    ensures |r| > 0 <==> exists i :: 0 <= i < |items| && items[i].usedIn >= 3
    decreases |items|
  {
    if |items| == 0 then []
    else
      var rest := FrequentNames(items[1..]);
      assert forall i :: 0 <= i < |items[1..]| ==> items[1..][i] == items[i + 1];
      if items[0].usedIn >= 3 then [items[0].name] + rest else rest
  }

  /** The first tip: the money left, or the overshoot, rounded to cents. */
  function BudgetTip(bill: real, budget: real): (t: Tip)
    ensures t.WithinBudget? <==> bill <= budget
    ensures t.WithinBudget? ==> t.remaining >= 0.0 && t.remaining == Round(budget - bill, 2)
    ensures t.OverBudget? ==> t.excess >= 0.0 && t.excess == Round(bill - budget, 2)
  {
    RoundKeepsSign(budget - bill, 2);
    RoundKeepsSign(bill - budget, 2);
    if bill <= budget then WithinBudget(Round(budget - bill, 2)) else OverBudget(Round(bill - budget, 2))
  }

  /** The optional second tip: the first three names bought for three or more meals. */
  function BulkTips(items: seq<Item>): (r: seq<Tip>)
    ensures |r| <= 1
    ensures |r| == 1 <==> exists i :: 0 <= i < |items| && items[i].usedIn >= 3
    ensures |r| == 1 ==> r[0] == BuyInBulk(FirstThree(FrequentNames(items)))
    ensures |r| == 1 ==> 1 <= |r[0].names| <= 3 && forall n :: n in r[0].names ==>
      exists i :: 0 <= i < |items| && items[i].usedIn >= 3 && items[i].name == n
  {
    var frequent := FrequentNames(items);
    assert |frequent| > 0 ==> frequent[0] in frequent;
    assert forall n :: n in FirstThree(frequent) ==> n in frequent;
    if |frequent| > 0 then [BuyInBulk(FirstThree(frequent))] else []
  }

  /** The priced items sorted by title-cased name. */
  function GroceryItems(lines: seq<Line>, db: map<string, real>): (items: seq<Item>)
    ensures SortedBy(items, ItemName)
    ensures multiset(items) == multiset(PricedList(lines, db))
    ensures |items| == |Keys(lines)|
  {
    AggregateIsExpectedPerKey(lines, KeepLast);
    SortBy(PricedList(lines, db), ItemName)
  }

  /** The unrounded bill of the merged records: the utility's `total_cost`. */
  function MergedBill(lines: seq<Line>, db: map<string, real>): (bill: real)
    ensures bill == LineBill(lines, db)
  {
    MergedBillIsLineBill(lines, KeepLast, db);
    SumOf(Aggregate(lines, KeepLast), e => EntryRawCost(e, db))
  }

  /** `generate_grocery_list`. Unlike the shopping tools it keeps the LAST
      unit seen for a name, and it adds up the unrounded item costs. */
  function GenerateGroceryList(plan: Plan, budget: real := DefaultBudget, costDb: Option<map<string, real>> := None): (r: GroceryPlan)
    ensures SortedBy(r.items, ItemName)
    ensures multiset(r.items) == multiset(PricedList(Lines(plan), costDb.GetOr(DefaultCostDb)))
    ensures r.totalItems == |r.items| == |Keys(Lines(plan))|
    ensures r.budget == budget
    ensures var bill := LineBill(Lines(plan), costDb.GetOr(DefaultCostDb));
      && (r.withinBudget <==> bill <= budget)
      && r.totalCost == Round(bill, 2)
      && |r.tips| >= 1
      && r.tips[0] == BudgetTip(bill, budget)
    ensures |r.tips| >= 1 && r.tips[1..] == BulkTips(r.items)
  {
    var db := costDb.GetOr(DefaultCostDb);
    var items := GroceryItems(Lines(plan), db);
    var bill := MergedBill(Lines(plan), db);
    GroceryPlan(items, |items|, Round(bill, 2), budget, bill <= budget, [BudgetTip(bill, budget)] + BulkTips(items))
  }

  lemma {:induction false} AbsorbAddsLineCost(es: seq<Entry>, l: Line, p: UnitPolicy, db: map<string, real>)
    ensures SumOf(Absorb(es, l, p), e => EntryRawCost(e, db)) == SumOf(es, e => EntryRawCost(e, db)) + LineRawCost(l, db)
    decreases |es|
  {
    var f := e => EntryRawCost(e, db);
    if |es| > 0 && es[0].key != Key(l) {
      AbsorbAddsLineCost(es[1..], l, p, db);
      assert Absorb(es, l, p)[1..] == Absorb(es[1..], l, p);
    } else if |es| > 0 {
      var price := PriceOf(db, es[0].key);
      assert Absorb(es, l, p)[1..] == es[1..];
      assert (es[0].total + l.amount) / 100.0 * price == es[0].total / 100.0 * price + l.amount / 100.0 * price;
    } else {
      SumOfOne(Fresh(l), f);
    }
  }

  /** Merging lines before pricing them changes no unrounded total: the
      bill is the sum of every line's own cost. */
  lemma {:induction false} MergedBillIsLineBill(lines: seq<Line>, p: UnitPolicy, db: map<string, real>)
    ensures SumOf(Aggregate(lines, p), e => EntryRawCost(e, db)) == SumOf(lines, l => LineRawCost(l, db))
    decreases |lines|
  {
    if |lines| > 0 {
      var init := lines[..|lines| - 1];
      var l := lines[|lines| - 1];
      MergedBillIsLineBill(init, p, db);
      AbsorbAddsLineCost(Aggregate(init, p), l, p, db);
      assert lines == init + [l];
      SumOfAppend(init, [l], l => LineRawCost(l, db));
      SumOfOne(l, l => LineRawCost(l, db));
    }
  }

  /** The item the utility should list for name `k`: like the shopping
      tools' item, but with the last unit and the given prices. */
  function ExpectedGroceryItem(lines: seq<Line>, k: string, db: map<string, real>): Item {
    var amount := AmountFor(lines, k);
    Item(Title(k), Round(amount, 1), LastUnit(lines, k), Round(RawCharge(amount, PriceOf(db, k)), 2), CountFor(lines, k))
  }

  lemma PricedAtAreExpected(lines: seq<Line>, db: map<string, real>)
    ensures forall it :: it in PricedList(lines, db) ==>
      exists k :: k in Keys(lines) && it == ExpectedGroceryItem(lines, k, db)
  {
    var es := Aggregate(lines, KeepLast);
    var priced := Map(es, e => PricedAt(e, db));
    AggregateIsExpectedPerKey(lines, KeepLast);
    forall it | it in priced ensures exists k :: k in Keys(lines) && it == ExpectedGroceryItem(lines, k, db) {
      var i :| 0 <= i < |es| && priced[i] == it;
      assert Expected(lines, es[i].key, KeepLast) == Some(es[i]);
      assert it == ExpectedGroceryItem(lines, es[i].key, db);
    }
  }

  lemma ExpectedArePricedAt(lines: seq<Line>, db: map<string, real>)
    ensures forall k :: k in Keys(lines) ==> ExpectedGroceryItem(lines, k, db) in PricedList(lines, db)
  {
    var es := Aggregate(lines, KeepLast);
    var priced := Map(es, e => PricedAt(e, db));
    AggregateIsExpectedPerKey(lines, KeepLast);
    forall k | k in Keys(lines) ensures ExpectedGroceryItem(lines, k, db) in priced {
      var e := Expected(lines, k, KeepLast).value;
      var i :| 0 <= i < |es| && es[i] == e;
      assert priced[i] == ExpectedGroceryItem(lines, k, db);
    }
  }

  /** `items` holds the expected grocery item of every name of `lines`, and nothing else. */
  predicate HoldsExpectedGroceryItems(items: seq<Item>, lines: seq<Line>, db: map<string, real>) {
    && (forall it :: it in items ==> exists k :: k in Keys(lines) && it == ExpectedGroceryItem(lines, k, db))
    && (forall k :: k in Keys(lines) ==> ExpectedGroceryItem(lines, k, db) in items)
  }

  lemma PermutedHoldsExpectedGrocery(a: seq<Item>, b: seq<Item>, lines: seq<Line>, db: map<string, real>)
    requires multiset(a) == multiset(b) && HoldsExpectedGroceryItems(b, lines, db)
    ensures HoldsExpectedGroceryItems(a, lines, db)
  {
    SameMembers(a, b);
  }

  /** Every listed item is the expected item of a name in the plan, and every
      name in the plan has its expected item listed. */
  lemma GroceryItemsAreExpected(plan: Plan, budget: real, costDb: Option<map<string, real>>)
    ensures HoldsExpectedGroceryItems(GenerateGroceryList(plan, budget, costDb).items, Lines(plan), costDb.GetOr(DefaultCostDb))
  {
    var db := costDb.GetOr(DefaultCostDb);
    var lines := Lines(plan);
    PricedAtAreExpected(lines, db);
    ExpectedArePricedAt(lines, db);
    PermutedHoldsExpectedGrocery(GenerateGroceryList(plan, budget, costDb).items, PricedList(lines, db), lines, db);
  }

  /** The same name with two units: the shopping tools keep the first unit,
      the utility keeps the last. */
  lemma UnitPoliciesDiverge(a: Line, b: Line)
    requires Key(a) == Key(b)
    ensures Aggregate([a, b], KeepFirst) == [Entry(Key(a), a.amount + b.amount, UnitOf(a), 2)]
    ensures Aggregate([a, b], KeepLast) == [Entry(Key(a), a.amount + b.amount, UnitOf(b), 2)]
  {
    assert [a, b][..1] == [a];
    assert [a][..0] == [];
    assert Aggregate([a], KeepFirst) == [Fresh(a)];
    assert Aggregate([a], KeepLast) == [Fresh(a)];
    assert Aggregate([a, b], KeepFirst) == Absorb([Fresh(a)], b, KeepFirst);
    assert Aggregate([a, b], KeepLast) == Absorb([Fresh(a)], b, KeepLast);
  }
}

=== FILE: plans.dfy ===
/** The parsed meal plan every aggregation reads, and reference definitions
    over its ingredient lines: which names occur, how often, with what total
    amount, and which unit the first and the last occurrence carry. */
module Plans {
  import opened Outcomes
  import opened Text

  /** One ingredient occurrence. A missing `name` parses as "" and a missing
      `amount` as 0; a missing `unit` stays absent, since the aggregators
      default it themselves. */
  datatype Line = Line(name: string, amount: real, unit: Option<string>)

  /** A missing `cooking_time_minutes` parses as 0. */
  datatype Meal = Meal(name: string, cookingTime: int, ingredients: seq<Line>)

  datatype Day = Day(meals: seq<Meal>)

  type Plan = seq<Day>

  /** A recipe's ingredient lines and its optional `servings`. */
  datatype Recipe = Recipe(ingredients: seq<Line>, servings: Option<int>)

  const DefaultUnit: string := "grams"

  /** `ing.get("unit", "grams")` */
  function UnitOf(l: Line): string {
    l.unit.GetOr(DefaultUnit)
  }

  /** The aggregation key: the lower-cased ingredient name. */
  function Key(l: Line): string {
    Lower(l.name)
  }

  /** The ingredient lines of some meals, meal by meal. */
  function MealLines(meals: seq<Meal>): seq<Line>
    decreases |meals|
  {
    if |meals| == 0 then [] else meals[0].ingredients + MealLines(meals[1..])
  }

  function DayLines(d: Day): seq<Line> {
    MealLines(d.meals)
  }

  /** Every ingredient line of the plan in the order the tools visit them:
      day by day, meal by meal, line by line. */
  function Lines(plan: Plan): seq<Line>
    decreases |plan|
  {
    if |plan| == 0 then [] else DayLines(plan[0]) + Lines(plan[1..])
  }

  /** The distinct keys of some lines. */
  function Keys(lines: seq<Line>): set<string> {
    set l | l in lines :: Key(l)
  }

  /** How many lines carry key `k`. */
  function CountFor(lines: seq<Line>, k: string): nat
    decreases |lines|
  {
    if |lines| == 0 then 0
    else CountFor(lines[..|lines| - 1], k) + (if Key(lines[|lines| - 1]) == k then 1 else 0)
  }

  /** The summed amount of the lines that carry key `k`. */
  function AmountFor(lines: seq<Line>, k: string): real
    decreases |lines|
  {
    if |lines| == 0 then 0.0
    else AmountFor(lines[..|lines| - 1], k) + (if Key(lines[|lines| - 1]) == k then lines[|lines| - 1].amount else 0.0)
  }

  /** The unit of the earliest line with key `k`. */
  function FirstUnit(lines: seq<Line>, k: string): string
    decreases |lines|
  {
    if |lines| == 0 then DefaultUnit
    else if Key(lines[0]) == k then UnitOf(lines[0])
    else FirstUnit(lines[1..], k)
  }

  /** The unit of the latest line with key `k`. */
  function LastUnit(lines: seq<Line>, k: string): string
    decreases |lines|
  {
    if |lines| == 0 then DefaultUnit
    else if Key(lines[|lines| - 1]) == k then UnitOf(lines[|lines| - 1])
    else LastUnit(lines[..|lines| - 1], k)
  }

  /** The distinct keys in the order of their first line, as the keys of a
      Python dict filled line by line. */
  function FirstSeen(lines: seq<Line>): (r: seq<string>)
    ensures forall k :: k in r <==> k in Keys(lines)
    decreases |lines|
  {
    if |lines| == 0 then []
    else
      var init := lines[..|lines| - 1];
      var l := lines[|lines| - 1];
      assert lines == init + [l];
      KeysSnoc(init, l);
      if Key(l) in Keys(init) then FirstSeen(init) else FirstSeen(init) + [Key(l)]
  }

  /** A key occurs exactly when some line carries it. */
  lemma {:induction false} CountPositiveIffKey(lines: seq<Line>, k: string)
    ensures CountFor(lines, k) > 0 <==> k in Keys(lines)
    decreases |lines|
  {
    if |lines| > 0 {
      var init := lines[..|lines| - 1];
      var last := lines[|lines| - 1];
      CountPositiveIffKey(init, k);
      assert lines == init + [last];
      assert Keys(lines) == Keys(init) + {Key(last)};
    }
  }

  lemma KeysSnoc(init: seq<Line>, l: Line)
    ensures Keys(init + [l]) == Keys(init) + {Key(l)}
  {
    assert forall x :: x in init + [l] <==> x in init || x == l;
  }

  /** Appending a line changes the first unit of its key only if the key was new. */
  lemma {:induction false} FirstUnitSnoc(init: seq<Line>, l: Line, k: string)
    ensures FirstUnit(init + [l], k)
         == if k in Keys(init) then FirstUnit(init, k)
            else if Key(l) == k then UnitOf(l) else DefaultUnit
    decreases |init|
  {
    if |init| > 0 {
      assert (init + [l])[0] == init[0];
      assert (init + [l])[1..] == init[1..] + [l];
      FirstUnitSnoc(init[1..], l, k);
      assert init == [init[0]] + init[1..];
      assert Keys(init) == {Key(init[0])} + Keys(init[1..]) by {
        assert forall x :: x in init <==> x == init[0] || x in init[1..];
      }
    } else {
      assert init + [l] == [l];
    }
  }

  lemma PrefixOfSnoc(init: seq<Line>, l: Line)
    ensures (init + [l])[..|init|] == init
  {
  }

  /** The lines of a plan split at the first day. */
  lemma LinesCons(plan: Plan)
    requires |plan| > 0
    ensures Lines(plan) == DayLines(plan[0]) + Lines(plan[1..])
  {
  }
}

=== FILE: profiles.dfy ===
/** The household profile store: creating a household, adding members with
    their restrictions, allergies and conditions, and gathering a household's
    constraints. The store is an explicit value passed in and returned. */
module Profiles {
  import opened Outcomes
  import opened Text

  datatype Member = Member(
    name: string, age: int, restrictions: seq<string>, allergies: seq<string>, conditions: seq<string>)

  datatype Household = Household(
    id: string, name: string, cookingTimeMax: int, budgetWeekly: real,
    cuisines: seq<string>, members: seq<Member>)

  /** `HOUSEHOLD_PROFILES`, keyed by household id. */
  type Store = map<string, Household>

  /** The settings of a household created without them. */
  const NewHouseholdCookingTimeMax: int := 45
  const NewHouseholdBudget: real := 150.0

  /** A store after an operation, and what the operation returned. */
  datatype Step<T> = Step(store: Store, out: T)

  /** `create_household_profile`: records a new household with no members,
      replacing any household with the same id. */
  function CreateHouseholdProfile(
    store: Store, id: string, name: string, cookingTimeMax: int := NewHouseholdCookingTimeMax,
    budgetWeekly: real := NewHouseholdBudget, cuisinePreferences: string := ""): (r: Step<Household>)
    ensures r.store.Keys == store.Keys + {id}
    ensures id in r.store && r.store[id] == r.out
    ensures forall h :: h in store && h != id ==> r.store[h] == store[h]
    ensures r.out.id == id && r.out.name == name && r.out.members == []
    ensures r.out.cookingTimeMax == cookingTimeMax && r.out.budgetWeekly == budgetWeekly
    ensures forall c :: c in r.out.cuisines ==> c != "" && Strip(c) == c
  {
    var cuisines := CommaList(cuisinePreferences);
    NonBlankStrippedSpec(Split(cuisinePreferences, ','));
    var profile := Household(id, name, cookingTimeMax, budgetWeekly, cuisines, []);
    Step(store[id := profile], profile)
  }

  /** A member's lists are the non-blank stripped entries of the comma-separated options. */
  function NewMember(name: string, age: int, restrictions: string, allergies: string, conditions: string): (m: Member)
    ensures m.name == name && m.age == age
    ensures forall x :: x in m.restrictions ==> x != "" && Strip(x) == x
    ensures forall x :: x in m.allergies ==> x != "" && Strip(x) == x
    ensures forall x :: x in m.conditions ==> x != "" && Strip(x) == x
  {
    NonBlankStrippedSpec(Split(restrictions, ','));
    NonBlankStrippedSpec(Split(allergies, ','));
    NonBlankStrippedSpec(Split(conditions, ','));
    Member(name, age, CommaList(restrictions), CommaList(allergies), CommaList(conditions))
  }

  /** `add_family_member`: an unknown household is an error and changes
      nothing; otherwise the member is appended to that household alone. */
  function AddFamilyMember(
    store: Store, id: string, name: string, age: int,
    restrictions: string, allergies: string, conditions: string): (r: Step<Result<Member>>)
    ensures r.out == Err(HouseholdNotFound) <==> id !in store
    ensures id !in store ==> r.store == store
    ensures id in store ==> r.out.Ok? && r.out.value.name == name && r.out.value.age == age
    ensures r.store.Keys == store.Keys
    ensures forall h :: h in store && h != id ==> r.store[h] == store[h]
    ensures id in store ==> r.store[id].members == store[id].members + [r.out.value]
    ensures id in store ==> r.store[id].(members := store[id].members) == store[id]
  {
    if id !in store then Step(store, Err(HouseholdNotFound))
    else
      var m := NewMember(name, age, restrictions, allergies, conditions);
      var h := store[id];
      Step(store[id := h.(members := h.members + [m])], Ok(m))
  }

  function Restrictions(m: Member): seq<string> { m.restrictions }
  function Allergies(m: Member): seq<string> { m.allergies }
  function Conditions(m: Member): seq<string> { m.conditions }

  /** `set(all_x)` after extending `all_x` with each member's list. */
  function Gather(ms: seq<Member>, field: Member -> seq<string>): (r: set<string>)
    ensures forall x :: x in r <==> exists i :: 0 <= i < |ms| && x in field(ms[i])
    decreases |ms|
  {
    if |ms| == 0 then {}
    else
      var rest := Gather(ms[1..], field);
      assert forall i :: 0 < i < |ms| ==> ms[1..][i - 1] == ms[i];
      (set x | x in field(ms[0])) + rest
  }

  lemma {:induction false} GatherAppend(ms: seq<Member>, m: Member, field: Member -> seq<string>)
    ensures Gather(ms + [m], field) == Gather(ms, field) + (set x | x in field(m))
  {
    var all := ms + [m];
    forall x ensures x in Gather(all, field) <==> x in Gather(ms, field) || x in field(m) {
      if x in Gather(all, field) {
        var i :| 0 <= i < |all| && x in field(all[i]);
        if i < |ms| {
          assert all[i] == ms[i];
        }
      }
      if x in Gather(ms, field) {
        var i :| 0 <= i < |ms| && x in field(ms[i]);
        assert all[i] == ms[i];
      }
      if x in field(m) {
        assert all[|ms|] == m;
      }
    }
  }

  datatype Constraints = Constraints(
    id: string, restrictions: set<string>, allergies: set<string>, conditions: set<string>,
    cookingTimeMax: int, budgetWeekly: real, cuisines: seq<string>, memberCount: nat, members: seq<Member>)

  /** `get_household_constraints`: the union of the members' lists, with the
      household's own settings. */
  function GetHouseholdConstraints(store: Store, id: string): (r: Result<Constraints>)
    ensures r == Err(HouseholdNotFound) <==> id !in store
    ensures r.Ok? ==> r.value.id == id && r.value.members == store[id].members
    ensures r.Ok? ==> r.value.memberCount == |r.value.members| == |store[id].members|
    ensures r.Ok? ==>
      && r.value.cookingTimeMax == store[id].cookingTimeMax
      && r.value.budgetWeekly == store[id].budgetWeekly
      && r.value.cuisines == store[id].cuisines
    ensures r.Ok? ==> forall x :: x in r.value.allergies <==>
      exists i :: 0 <= i < |store[id].members| && x in store[id].members[i].allergies
    ensures r.Ok? ==> forall x :: x in r.value.restrictions <==>
      exists i :: 0 <= i < |store[id].members| && x in store[id].members[i].restrictions
    ensures r.Ok? ==> forall x :: x in r.value.conditions <==>
      exists i :: 0 <= i < |store[id].members| && x in store[id].members[i].conditions
  {
    if id !in store then Err(HouseholdNotFound)
    else
      var h := store[id];
      Ok(Constraints(id, Gather(h.members, Restrictions), Gather(h.members, Allergies),
        Gather(h.members, Conditions), h.cookingTimeMax, h.budgetWeekly, h.cuisines,
        |h.members|, h.members))
  }

  /** A fresh household has no constraints yet and keeps its settings. */
  lemma CreatedHouseholdHasNoConstraints(
    store: Store, id: string, name: string, cookingTimeMax: int, budgetWeekly: real, cuisines: string)
    ensures var s := CreateHouseholdProfile(store, id, name, cookingTimeMax, budgetWeekly, cuisines).store;
      var c := GetHouseholdConstraints(s, id);
      && c.Ok? && c.value.memberCount == 0
      && c.value.restrictions == {} && c.value.allergies == {} && c.value.conditions == {}
      && c.value.cookingTimeMax == cookingTimeMax && c.value.budgetWeekly == budgetWeekly
      && c.value.cuisines == CommaList(cuisines)
  {
  }

  /** Adding a member adds exactly that member's allergies, restrictions and
      conditions to the household's constraints, and one to its count. */
  lemma AddMemberExtendsConstraints(
    store: Store, id: string, name: string, age: int,
    restrictions: string, allergies: string, conditions: string)
    requires id in store
    ensures var step := AddFamilyMember(store, id, name, age, restrictions, allergies, conditions);
      var before := GetHouseholdConstraints(store, id).value;
      var after := GetHouseholdConstraints(step.store, id).value;
      && after.memberCount == before.memberCount + 1
      && after.allergies == before.allergies + (set x | x in CommaList(allergies))
      && after.restrictions == before.restrictions + (set x | x in CommaList(restrictions))
      && after.conditions == before.conditions + (set x | x in CommaList(conditions))
  {
    var step := AddFamilyMember(store, id, name, age, restrictions, allergies, conditions);
    var m := step.out.value;
    GatherAppend(store[id].members, m, Allergies);
    GatherAppend(store[id].members, m, Restrictions);
    GatherAppend(store[id].members, m, Conditions);
  }
}

=== FILE: schedule.dfy ===
/** The schedule tools: per-day cooking time statistics and the count of
    ingredients that recur across the plan. */
module Schedule {
  import opened Outcomes
  import opened Numbers
  import opened Plans
  import opened Sorting
  import opened Shopping

  function MealTime(m: Meal): int { m.cookingTime }

  /** A day's cooking minutes: the sum over its meals. */
  function DayTime(d: Day): int {
    IntSum(Map(d.meals, MealTime))
  }

  /** The plan's cooking minutes, summed day by day. */
  function PlanMinutes(plan: Plan): int
    decreases |plan|
  {
    if |plan| == 0 then 0 else DayTime(plan[0]) + PlanMinutes(plan[1..])
  }

  datatype CookingStats = CookingStats(
    totalMinutes: int, averagePerDay: real, maxDay: int, minDay: int, dailyTimes: seq<int>)

  /** The statistics as `analyze_cooking_time` of the schedule tool module
      states them: the list of day totals first, then `sum`, `max`, `min`. */
  function CookingStatsOf(plan: Plan): (r: CookingStats)
    ensures |r.dailyTimes| == |plan|
    ensures forall i :: 0 <= i < |plan| ==> r.dailyTimes[i] == DayTime(plan[i])
    ensures r.totalMinutes == PlanMinutes(plan)
    ensures |plan| == 0 ==> r.totalMinutes == 0 && r.averagePerDay == 0.0 && r.maxDay == 0 && r.minDay == 0
    ensures |plan| > 0 ==> r.maxDay in r.dailyTimes && r.minDay in r.dailyTimes
    ensures |plan| > 0 ==> forall i :: 0 <= i < |plan| ==> r.minDay <= r.dailyTimes[i] <= r.maxDay
    ensures |plan| > 0 ==> r.averagePerDay == Round(PlanMinutes(plan) as real / |plan| as real, 1)
  {
    var daily := Map(plan, DayTime);
    var total := IntSum(daily);
    DailySumIsPlanMinutes(plan);
    if |daily| == 0 then CookingStats(0, 0.0, 0, 0, daily)
    else CookingStats(total, Round(total as real / |daily| as real, 1), MaxOf(daily), MinOf(daily), daily)
  }

  lemma {:induction false} DailySumIsPlanMinutes(plan: Plan)
    ensures IntSum(Map(plan, DayTime)) == PlanMinutes(plan)
    decreases |plan|
  {
    if |plan| > 0 {
      DailySumIsPlanMinutes(plan[1..]);
      assert Map(plan, DayTime)[1..] == Map(plan[1..], DayTime);
    }
  }

  /** The rounded average lies between the lightest and the heaviest day. */
  lemma AverageBetweenMinAndMax(plan: Plan)
    requires |plan| > 0
    ensures var s := CookingStatsOf(plan);
      s.minDay as real <= s.averagePerDay <= s.maxDay as real
  {
    var s := CookingStatsOf(plan);
    var daily := Map(plan, DayTime);
    MeanBetweenMinMax(daily);
    RoundBetweenWhole(IntSum(daily) as real / |daily| as real, MinOf(daily), MaxOf(daily), 1);
  }

  /** `analyze_cooking_time` of the complete tool set, which keeps a running
      total while it collects the day totals. */
  method AnalyzeCookingTime(input: Json<Plan>) returns (r: Result<CookingStats>)
    ensures input.Malformed? <==> r == Err(InvalidJson)
    ensures r.Ok? ==> r.value == CookingStatsOf(input.value)
  {
    if input.Malformed? {
      return Err(InvalidJson);
    }
    var plan := input.value;
    var daily: seq<int> := [];
    var total := 0;
    var i := 0;
    while i < |plan|
      invariant 0 <= i <= |plan|
      invariant |daily| == i
      invariant forall j :: 0 <= j < i ==> daily[j] == DayTime(plan[j])
      invariant total == IntSum(daily)
    {
      var dayTime := DayTime(plan[i]);
      IntSumAppend(daily, [dayTime]);
      daily := daily + [dayTime];
      total := total + dayTime;
      i := i + 1;
    }
    assert daily == Map(plan, DayTime);
    if |daily| == 0 {
      return Ok(CookingStats(total, 0.0, 0, 0, daily));
    }
    return Ok(CookingStats(total, Round(total as real / |daily| as real, 1), MaxOf(daily), MinOf(daily), daily));
  }

  /** One name of the `ingredient_counts` dictionary and its count. */
  datatype Tally = Tally(name: string, count: nat)

  function TallyOf(e: Entry): Tally { Tally(e.key, e.uses) }

  /** The occurrence count per lower-cased name, in first-seen order. The
      count is the `used_in` of the shopping aggregation, which visits the
      same lines with the same key. */
  function IngredientCounts(lines: seq<Line>): seq<Tally> {
    Map(Aggregate(lines, KeepFirst), TallyOf)
  }

  /** `{k: v for k, v in counts.items() if v >= 2}` */
  function Recurring(ts: seq<Tally>): (r: seq<Tally>)
    ensures |r| <= |ts|
    ensures forall t :: t in r <==> t in ts && t.count >= 2
    decreases |ts|
  {
    if |ts| == 0 then []
    else if ts[0].count >= 2 then [ts[0]] + Recurring(ts[1..])
    else Recurring(ts[1..])
  }

  function TallyName(t: Tally): string { t.name }

  /** The keys of `keys` carried by two or more of `lines`, in order. */
  function TwiceSeen(keys: seq<string>, lines: seq<Line>): seq<string>
    decreases |keys|
  {
    if |keys| == 0 then []
    else (if CountFor(lines, keys[0]) >= 2 then [keys[0]] else []) + TwiceSeen(keys[1..], lines)
  }

  lemma {:induction false} RecurringNames(es: seq<Entry>, lines: seq<Line>)
    requires forall e :: e in es ==> e.uses == CountFor(lines, e.key)
    ensures Map(Recurring(Map(es, TallyOf)), TallyName) == TwiceSeen(Map(es, EntryKey), lines)
    decreases |es|
  {
    if |es| > 0 {
      RecurringNames(es[1..], lines);
      var ts := Map(es, TallyOf);
      assert ts[1..] == Map(es[1..], TallyOf);
      assert Map(es, EntryKey)[1..] == Map(es[1..], EntryKey);
      assert es[0] in es;
      var head := if ts[0].count >= 2 then [ts[0]] else [];
      assert Recurring(ts) == head + Recurring(ts[1..]);
      MapAppend(head, Recurring(ts[1..]), TallyName);
    }
  }

  /** The recurring names come in the order of their first line, as the keys
      of the counting dictionary do. */
  lemma RecurringInFirstSeenOrder(lines: seq<Line>)
    ensures Map(Recurring(IngredientCounts(lines)), TallyName) == TwiceSeen(FirstSeen(lines), lines)
  {
    var es := Aggregate(lines, KeepFirst);
    AggregateIsExpectedPerKey(lines, KeepFirst);
    RecurringNames(es, lines);
    AggregateKeysFirstSeen(lines, KeepFirst);
  }

  datatype ReuseReport = ReuseReport(reused: seq<Tally>, reuseCount: nat, totalUnique: nat)

  /** `find_ingredient_reuse` */
  function FindIngredientReuse(input: Json<Plan>): (r: Result<ReuseReport>)
    ensures input.Malformed? <==> r == Err(InvalidJson)
    ensures r.Ok? ==> r.value.reuseCount == |r.value.reused| <= r.value.totalUnique
    ensures r.Ok? ==> r.value.totalUnique == |Keys(Lines(input.value))|
  {
    match input
    case Malformed => Err(InvalidJson)
    case Parsed(plan) =>
      var counts := IngredientCounts(Lines(plan));
      var reused := Recurring(counts);
      AggregateIsExpectedPerKey(Lines(plan), KeepFirst);
      Ok(ReuseReport(reused, |reused|, |counts|))
  }

  /** The counts list every name of the plan exactly with its number of lines. */
  lemma CountsAreExact(lines: seq<Line>)
    ensures forall t :: t in IngredientCounts(lines) <==> t.name in Keys(lines) && t.count == CountFor(lines, t.name)
  {
    var es := Aggregate(lines, KeepFirst);
    AggregateIsExpectedPerKey(lines, KeepFirst);
    forall t ensures t in IngredientCounts(lines) <==> t.name in Keys(lines) && t.count == CountFor(lines, t.name) {
      if t in IngredientCounts(lines) {
        var i :| 0 <= i < |es| && IngredientCounts(lines)[i] == t;
        assert Expected(lines, es[i].key, KeepFirst) == Some(es[i]);
      }
      if t.name in Keys(lines) && t.count == CountFor(lines, t.name) {
        var e := Expected(lines, t.name, KeepFirst).value;
        var i :| 0 <= i < |es| && es[i] == e;
        assert IngredientCounts(lines)[i] == t;
      }
    }
  }

  /** A name is reported as reused exactly when it occurs on two or more lines. */
  lemma ReusedIffTwoOrMore(plan: Plan, k: string)
    ensures var rep := FindIngredientReuse(Parsed(plan)).value;
      (exists t :: t in rep.reused && t.name == k) <==> CountFor(Lines(plan), k) >= 2
    ensures var rep := FindIngredientReuse(Parsed(plan)).value;
      forall t :: t in rep.reused ==> t.count == CountFor(Lines(plan), t.name)
  {
    var lines := Lines(plan);
    CountsAreExact(lines);
    CountPositiveIffKey(lines, k);
    if CountFor(lines, k) >= 2 {
      assert Tally(k, CountFor(lines, k)) in IngredientCounts(lines);
    }
  }

  function TallyCount(t: Tally): real { t.count as real }

  function EntryUses(e: Entry): real { e.uses as real }

  lemma {:induction false} AbsorbAddsOneUse(es: seq<Entry>, l: Line, p: UnitPolicy)
    ensures SumOf(Absorb(es, l, p), EntryUses) == SumOf(es, EntryUses) + 1.0
    decreases |es|
  {
    if |es| > 0 && es[0].key != Key(l) {
      AbsorbAddsOneUse(es[1..], l, p);
      assert Absorb(es, l, p)[1..] == Absorb(es[1..], l, p);
    } else if |es| > 0 {
      assert Absorb(es, l, p)[1..] == es[1..];
    }
  }

  lemma {:induction false} UsesCoverLines(lines: seq<Line>, p: UnitPolicy)
    ensures SumOf(Aggregate(lines, p), EntryUses) == |lines| as real
    decreases |lines|
  {
    if |lines| > 0 {
      UsesCoverLines(lines[..|lines| - 1], p);
      AbsorbAddsOneUse(Aggregate(lines[..|lines| - 1], p), lines[|lines| - 1], p);
    }
  }

  lemma {:induction false} SumOfTallies(es: seq<Entry>)
    ensures SumOf(Map(es, TallyOf), TallyCount) == SumOf(es, EntryUses)
    decreases |es|
  {
    if |es| > 0 {
      SumOfTallies(es[1..]);
      assert Map(es, TallyOf)[1..] == Map(es[1..], TallyOf);
    }
  }

  /** Every ingredient line is counted exactly once. */
  lemma CountsSumToLines(lines: seq<Line>)
    ensures SumOf(IngredientCounts(lines), TallyCount) == |lines| as real
  {
    SumOfTallies(Aggregate(lines, KeepFirst));
    UsesCoverLines(lines, KeepFirst);
  }
}

=== FILE: sessions.dfy ===
/** The session manager: one record per conversation with its household,
    its messages and a context dictionary. The sessions are an explicit value
    passed in and returned. */
module Sessions {
  import opened Outcomes
  import opened Slices

  datatype Message = Message(role: string, content: string)

  datatype Session = Session(id: string, householdId: string, messages: seq<Message>, context: map<string, string>)

  /** `self.sessions`, keyed by session id. */
  type Sessions = map<string, Session>

  /** Messages returned when no limit is given. */
  const DefaultMessageLimit: int := 10

  /** `create_session`: a fresh session with no messages and an empty
      context, replacing any session with the same id. */
  function CreateSession(s: Sessions, sid: string, hid: string): (r: Sessions)
    ensures r.Keys == s.Keys + {sid}
    ensures r[sid].id == sid && r[sid].householdId == hid
    ensures r[sid].messages == [] && r[sid].context == map[]
    ensures forall k :: k in s && k != sid ==> r[k] == s[k]
  {
    s[sid := Session(sid, hid, [], map[])]
  }

  /** `add_message`: appends to a known session; an unknown id changes nothing. */
  function AddMessage(s: Sessions, sid: string, role: string, content: string): (r: Sessions)
    ensures sid !in s ==> r == s
    ensures r.Keys == s.Keys
    ensures forall k :: k in s && k != sid ==> r[k] == s[k]
    ensures sid in s ==> r[sid].messages == s[sid].messages + [Message(role, content)]
    ensures sid in s ==> r[sid].(messages := s[sid].messages) == s[sid]
  {
    if sid in s then s[sid := s[sid].(messages := s[sid].messages + [Message(role, content)])] else s
  }

  /** `update_context`: `dict.update` on a known session's context, the new
      values winning; an unknown id changes nothing. */
  function UpdateContext(s: Sessions, sid: string, context: map<string, string>): (r: Sessions)
    ensures sid !in s ==> r == s
    ensures r.Keys == s.Keys
    ensures forall k :: k in s && k != sid ==> r[k] == s[k]
    ensures sid in s ==> r[sid].context.Keys == s[sid].context.Keys + context.Keys
    ensures sid in s ==> forall k :: k in context ==> r[sid].context[k] == context[k]
    ensures sid in s ==> forall k :: k in s[sid].context && k !in context ==> r[sid].context[k] == s[sid].context[k]
    ensures sid in s ==> r[sid].(context := s[sid].context) == s[sid]
  {
    if sid in s then s[sid := s[sid].(context := s[sid].context + context)] else s
  }

  /** `get_session` */
  function GetSession(s: Sessions, sid: string): (r: Option<Session>)
    ensures r.Some? <==> sid in s
    ensures r.Some? ==> r.value == s[sid]
  {
    if sid in s then Some(s[sid]) else None
  }

  /** `get_context`: empty for an unknown session. */
  function GetContext(s: Sessions, sid: string): (r: map<string, string>)
    ensures sid !in s ==> r == map[]
    ensures sid in s ==> r == s[sid].context
  {
    if sid in s then s[sid].context else map[]
  }

  /** `get_messages`: the `limit` most recent messages, oldest first; empty
      for an unknown session. */
  function GetMessages(s: Sessions, sid: string, limit: int := DefaultMessageLimit): (r: seq<Message>)
    ensures sid !in s ==> r == []
    ensures sid in s ==> |r| <= |s[sid].messages| && r == s[sid].messages[|s[sid].messages| - |r|..]
    ensures sid in s && limit >= 1 ==> |r| == MinNat(limit, |s[sid].messages|)
    ensures sid in s && limit == 0 ==> r == s[sid].messages
    ensures sid in s && limit < 0 ==> |r| == |s[sid].messages| - MinNat(-limit, |s[sid].messages|)
  {
    if sid in s then RecentTail(s[sid].messages, limit) else []
  }

  /** The message just added is the newest one returned. */
  lemma AddedMessageIsNewest(s: Sessions, sid: string, role: string, content: string, limit: int)
    requires sid in s && limit >= 1
    ensures var ms := GetMessages(AddMessage(s, sid, role, content), sid, limit);
      |ms| >= 1 && ms[|ms| - 1] == Message(role, content)
  {
  }

  /** A new session then one message: exactly that message is returned. */
  lemma FirstMessageOfNewSession(s: Sessions, sid: string, hid: string, role: string, content: string)
    ensures GetMessages(AddMessage(CreateSession(s, sid, hid), sid, role, content), sid)
      == [Message(role, content)]
    ensures GetContext(CreateSession(s, sid, hid), sid) == map[]
  {
  }

  /** Messages added to one session never show up in another. */
  lemma MessagesStayInTheirSession(s: Sessions, sid: string, other: string, role: string, content: string, limit: int)
    requires other != sid
    ensures GetMessages(AddMessage(s, sid, role, content), other, limit) == GetMessages(s, other, limit)
  {
  }
}

=== FILE: shopping.dfy ===
/** Merging a plan's ingredient lines into a shopping list: one entry per
    lower-cased name with the summed amount, a unit and a use count, then
    priced and sorted by the title-cased name. */
module Shopping {
  import opened Outcomes
  import opened Text
  import opened Numbers
  import opened Plans
  import opened Sorting
  import opened Costs

  /** Which unit an entry keeps when a name recurs with another unit. */
  datatype UnitPolicy = KeepFirst | KeepLast

  /** One merged ingredient before pricing: the `aggregated[name]` record. */
  datatype Entry = Entry(key: string, total: real, unit: string, uses: nat)

  /** The record a first occurrence creates. */
  function Fresh(l: Line): Entry {
    Entry(Key(l), l.amount, UnitOf(l), 1)
  }

  /** The record after one more occurrence of its name. */
  function Bump(e: Entry, l: Line, p: UnitPolicy): Entry {
    Entry(e.key, e.total + l.amount, if p == KeepLast then UnitOf(l) else e.unit, e.uses + 1)
  }

  /** The record of a line's name after the line, given the record before it. */
  function Stepped(prev: Option<Entry>, l: Line, p: UnitPolicy): Option<Entry> {
    if prev.None? then Some(Fresh(l)) else Some(Bump(prev.value, l, p))
  }

  /** Fold one line into the records; a new name goes last, as in a Python dict. */
  function Absorb(es: seq<Entry>, l: Line, p: UnitPolicy): seq<Entry>
    decreases |es|
  {
    if |es| == 0 then [Fresh(l)]
    else if es[0].key == Key(l) then [Bump(es[0], l, p)] + es[1..]
    else [es[0]] + Absorb(es[1..], l, p)
  }

  /** The records after visiting every line in order. */
  function Aggregate(lines: seq<Line>, p: UnitPolicy): seq<Entry>
    decreases |lines|
  {
    if |lines| == 0 then []
    else Absorb(Aggregate(lines[..|lines| - 1], p), lines[|lines| - 1], p)
  }

  function KeySet(es: seq<Entry>): set<string>
    decreases |es|
  {
    if |es| == 0 then {} else {es[0].key} + KeySet(es[1..])
  }

  /** No two records share a name. */
  predicate KeysDistinct(es: seq<Entry>)
    decreases |es|
  {
    |es| == 0 || (es[0].key !in KeySet(es[1..]) && KeysDistinct(es[1..]))
  }

  /** The first record for name `k`, if any. */
  function Find(es: seq<Entry>, k: string): (r: Option<Entry>)
    ensures r.Some? <==> k in KeySet(es)
    ensures r.Some? ==> r.value in es && r.value.key == k
    decreases |es|
  {
    if |es| == 0 then None
    else if es[0].key == k then Some(es[0])
    else Find(es[1..], k)
  }

  function UnitFor(lines: seq<Line>, k: string, p: UnitPolicy): string {
    if p == KeepFirst then FirstUnit(lines, k) else LastUnit(lines, k)
  }

  /** The record a name should have, stated without the fold: its total is
      the sum of its lines' amounts, its use count the number of its lines,
      and its unit that of its first (or last) line. */
  function Expected(lines: seq<Line>, k: string, p: UnitPolicy): Option<Entry> {
    if k in Keys(lines)
    then Some(Entry(k, AmountFor(lines, k), UnitFor(lines, k, p), CountFor(lines, k)))
    else None
  }

  /** What one fold step does to the lookup of every name. */
  lemma {:induction false} AbsorbFind(es: seq<Entry>, l: Line, p: UnitPolicy)
    requires KeysDistinct(es)
    ensures KeysDistinct(Absorb(es, l, p))
    ensures KeySet(Absorb(es, l, p)) == KeySet(es) + {Key(l)}
    ensures forall k :: Find(Absorb(es, l, p), k) == if k == Key(l) then Stepped(Find(es, k), l, p) else Find(es, k)
    decreases |es|
  {
    if |es| > 0 && es[0].key != Key(l) {
      AbsorbFind(es[1..], l, p);
      var r := Absorb(es, l, p);
      assert r[1..] == Absorb(es[1..], l, p);
    } else if |es| > 0 {
      var r := Absorb(es, l, p);
      assert r[1..] == es[1..];
    }
  }

  lemma {:induction false} AmountZeroWhenAbsent(lines: seq<Line>, k: string)
    requires k !in Keys(lines)
    ensures AmountFor(lines, k) == 0.0
    decreases |lines|
  {
    if |lines| > 0 {
      var init := lines[..|lines| - 1];
      KeysSnoc(init, lines[|lines| - 1]);
      assert lines == init + [lines[|lines| - 1]];
      AmountZeroWhenAbsent(init, k);
    }
  }

  /** What appending a line does to a name's count, amount and last unit. */
  lemma SnocTallies(init: seq<Line>, l: Line, k: string)
    ensures CountFor(init + [l], k) == CountFor(init, k) + (if Key(l) == k then 1 else 0)
    ensures AmountFor(init + [l], k) == AmountFor(init, k) + (if Key(l) == k then l.amount else 0.0)
    ensures LastUnit(init + [l], k) == if Key(l) == k then UnitOf(l) else LastUnit(init, k)
  {
    var lines := init + [l];
    assert lines[..|lines| - 1] == init;
    assert lines[|lines| - 1] == l;
  }

  /** How the expected record of one name changes when a line is appended. */
  lemma StepExpected(init: seq<Line>, l: Line, k: string, p: UnitPolicy)
    ensures Expected(init + [l], k, p) == if k == Key(l) then Stepped(Expected(init, k, p), l, p) else Expected(init, k, p)
  {
    KeysSnoc(init, l);
    FirstUnitSnoc(init, l, k);
    SnocTallies(init, l, k);
    if k == Key(l) && k !in Keys(init) {
      CountPositiveIffKey(init, k);
      AmountZeroWhenAbsent(init, k);
      assert Expected(init + [l], k, p) == Some(Fresh(l));
    }
  }

  /** The fold computes exactly the expected record for every name. */
  lemma {:induction false} AggregateMatchesPlan(lines: seq<Line>, p: UnitPolicy)
    ensures KeysDistinct(Aggregate(lines, p))
    ensures forall k :: Find(Aggregate(lines, p), k) == Expected(lines, k, p)
    decreases |lines|
  {
    if |lines| > 0 {
      var init := lines[..|lines| - 1];
      var l := lines[|lines| - 1];
      assert lines == init + [l];
      AggregateMatchesPlan(init, p);
      AbsorbFind(Aggregate(init, p), l, p);
      assert Aggregate(lines, p) == Absorb(Aggregate(init, p), l, p);
      forall k ensures Find(Aggregate(lines, p), k) == Expected(lines, k, p) {
        StepExpected(init, l, k, p);
      }
    }
  }

  lemma {:induction false} FindOfMember(es: seq<Entry>, e: Entry)
    requires KeysDistinct(es) && e in es
    ensures Find(es, e.key) == Some(e)
    decreases |es|
  {
    if es[0] != e {
      assert e in es[1..];
      FindOfMember(es[1..], e);
      KeySetHasMembers(es[1..]);
    }
  }

  lemma {:induction false} KeySetHasMembers(es: seq<Entry>)
    ensures forall e :: e in es ==> e.key in KeySet(es)
    decreases |es|
  {
    if |es| > 0 {
      KeySetHasMembers(es[1..]);
      assert forall e :: e in es ==> e == es[0] || e in es[1..];
    }
  }

  lemma {:induction false} DistinctKeyCount(es: seq<Entry>)
    requires KeysDistinct(es)
    ensures |KeySet(es)| == |es|
    decreases |es|
  {
    if |es| > 0 {
      DistinctKeyCount(es[1..]);
    }
  }

  function EntryKey(e: Entry): string { e.key }

  /** One fold step keeps the order of the names and puts a new name last. */
  lemma {:induction false} AbsorbKeys(es: seq<Entry>, l: Line, p: UnitPolicy)
    ensures Map(Absorb(es, l, p), EntryKey)
         == if Key(l) in KeySet(es) then Map(es, EntryKey) else Map(es, EntryKey) + [Key(l)]
    decreases |es|
  {
    if |es| > 0 {
      var r := Absorb(es, l, p);
      if es[0].key == Key(l) {
        assert r == [Bump(es[0], l, p)] + es[1..];
        assert |Map(r, EntryKey)| == |Map(es, EntryKey)|;
        forall i | 0 <= i < |es| ensures Map(r, EntryKey)[i] == Map(es, EntryKey)[i] {
          if i > 0 {
            assert r[i] == es[i];
          }
        }
      } else {
        AbsorbKeys(es[1..], l, p);
        assert Key(l) in KeySet(es) <==> Key(l) in KeySet(es[1..]);
        var tail := Absorb(es[1..], l, p);
        assert r == [es[0]] + tail;
        MapAppend([es[0]], tail, EntryKey);
        assert es == [es[0]] + es[1..];
        MapAppend([es[0]], es[1..], EntryKey);
        if Key(l) !in KeySet(es[1..]) {
          assert Map(es, EntryKey) + [Key(l)] == Map([es[0]], EntryKey) + (Map(es[1..], EntryKey) + [Key(l)]);
        }
      }
    }
  }

  /** The fold lists the names in the order of their first line. */
  lemma {:induction false} AggregateKeysFirstSeen(lines: seq<Line>, p: UnitPolicy)
    ensures Map(Aggregate(lines, p), EntryKey) == FirstSeen(lines)
    decreases |lines|
  {
    if |lines| > 0 {
      var init := lines[..|lines| - 1];
      var l := lines[|lines| - 1];
      AggregateKeysFirstSeen(init, p);
      AggregateMatchesPlan(init, p);
      AbsorbKeys(Aggregate(init, p), l, p);
      assert Find(Aggregate(init, p), Key(l)) == Expected(init, Key(l), p);
    }
  }

  /** The records are exactly the expected records of the plan's names, one per name. */
  lemma AggregateIsExpectedPerKey(lines: seq<Line>, p: UnitPolicy)
    ensures var es := Aggregate(lines, p);
      && |es| == |Keys(lines)|
      && (forall e :: e in es ==> e.key in Keys(lines) && Expected(lines, e.key, p) == Some(e))
      && (forall k :: k in Keys(lines) ==> Expected(lines, k, p).value in es)
  {
    var es := Aggregate(lines, p);
    AggregateMatchesPlan(lines, p);
    forall e | e in es ensures e.key in Keys(lines) && Expected(lines, e.key, p) == Some(e) {
      FindOfMember(es, e);
    }
    assert KeySet(es) == Keys(lines) by {
      forall k ensures k in KeySet(es) <==> k in Keys(lines) {
        assert Find(es, k) == Expected(lines, k, p);
      }
    }
    DistinctKeyCount(es);
  }

  /** One line of the shopping list. */
  datatype Item = Item(name: string, amount: real, unit: string, cost: real, usedIn: nat)

  function ItemName(it: Item): string { it.name }

  function ItemCost(it: Item): real { it.cost }

  datatype ShoppingList = ShoppingList(items: seq<Item>, totalItems: nat, totalCost: real)

  /** A record priced from the cost table at its summed amount. */
  function PricedItem(e: Entry): Item {
    Item(Title(e.key), Round(e.total, 1), e.unit, EstimateIngredientCost(e.key, e.total).totalCost, e.uses)
  }

  /** The item the list should hold for name `k`, stated without the fold. */
  function ExpectedItem(lines: seq<Line>, k: string): Item {
    var amount := AmountFor(lines, k);
    Item(Title(k), Round(amount, 1), FirstUnit(lines, k),
         EstimateIngredientCost(k, amount).totalCost, CountFor(lines, k))
  }

  /** `aggregate_ingredients_for_shopping` of the complete tool set: the first
      unit seen for a name is kept and `used_in` counts its occurrences. */
  function AggregateIngredientsForShopping(input: Json<Plan>): (r: Result<ShoppingList>)
    ensures input.Malformed? <==> r == Err(InvalidJson)
    ensures r.Ok? ==> SortedBy(r.value.items, ItemName)
    ensures r.Ok? ==> r.value.totalItems == |r.value.items| == |Keys(Lines(input.value))|
    ensures r.Ok? ==> r.value.totalCost == Round(SumOf(r.value.items, ItemCost), 2)
  {
    match input
    case Malformed => Err(InvalidJson)
    case Parsed(plan) =>
      var priced := Map(Aggregate(Lines(plan), KeepFirst), PricedItem);
      var sorted := SortBy(priced, ItemName);
      AggregateIsExpectedPerKey(Lines(plan), KeepFirst);
      SumOfPermutation(priced, sorted, ItemCost);
      Ok(ShoppingList(sorted, |priced|, Round(SumOf(priced, ItemCost), 2)))
  }

  lemma MapMembers<A, B>(xs: seq<A>, f: A -> B)
    ensures forall y :: y in Map(xs, f) <==> exists x :: x in xs && y == f(x)
  {
    forall y | y in Map(xs, f) ensures exists x :: x in xs && y == f(x) {
      var i :| 0 <= i < |xs| && Map(xs, f)[i] == y;
      assert xs[i] in xs;
    }
    forall x | x in xs ensures f(x) in Map(xs, f) {
      var i :| 0 <= i < |xs| && xs[i] == x;
      assert Map(xs, f)[i] == f(x);
    }
  }

  lemma PricedAreExpected(lines: seq<Line>)
    ensures forall it :: it in Map(Aggregate(lines, KeepFirst), PricedItem) ==>
      exists k :: k in Keys(lines) && it == ExpectedItem(lines, k)
  {
    var es := Aggregate(lines, KeepFirst);
    AggregateIsExpectedPerKey(lines, KeepFirst);
    forall it | it in Map(es, PricedItem) ensures exists k :: k in Keys(lines) && it == ExpectedItem(lines, k) {
      var i :| 0 <= i < |es| && Map(es, PricedItem)[i] == it;
      var e := es[i];
      assert Expected(lines, e.key, KeepFirst) == Some(e);
      assert it == ExpectedItem(lines, e.key);
    }
  }

  lemma ExpectedArePriced(lines: seq<Line>)
    ensures forall k :: k in Keys(lines) ==> ExpectedItem(lines, k) in Map(Aggregate(lines, KeepFirst), PricedItem)
  {
    var es := Aggregate(lines, KeepFirst);
    AggregateIsExpectedPerKey(lines, KeepFirst);
    forall k | k in Keys(lines) ensures ExpectedItem(lines, k) in Map(es, PricedItem) {
      var e := Expected(lines, k, KeepFirst).value;
      var i :| 0 <= i < |es| && es[i] == e;
      assert Map(es, PricedItem)[i] == ExpectedItem(lines, k);
    }
  }

  /** `items` holds the expected item of every name of `lines`, and nothing else. */
  predicate HoldsExpectedItems(items: seq<Item>, lines: seq<Line>) {
    && (forall it :: it in items ==> exists k :: k in Keys(lines) && it == ExpectedItem(lines, k))
    && (forall k :: k in Keys(lines) ==> ExpectedItem(lines, k) in items)
  }

  lemma PermutedHoldsExpected(a: seq<Item>, b: seq<Item>, lines: seq<Line>)
    requires multiset(a) == multiset(b) && HoldsExpectedItems(b, lines)
    ensures HoldsExpectedItems(a, lines)
  {
    SameMembers(a, b);
  }

  /** Every item is the expected item of a name in the plan, and every name
      in the plan has its expected item in the list. */
  lemma ShoppingListIsExpected(plan: Plan)
    ensures HoldsExpectedItems(AggregateIngredientsForShopping(Parsed(plan)).value.items, Lines(plan))
  {
    var lines := Lines(plan);
    var priced := Map(Aggregate(lines, KeepFirst), PricedItem);
    var items := AggregateIngredientsForShopping(Parsed(plan)).value.items;
    assert items == SortBy(priced, ItemName);
    PricedAreExpected(lines);
    ExpectedArePriced(lines);
    PermutedHoldsExpected(items, priced, lines);
  }

  /** Two lines whose names differ only in case land in one item whose
      `used_in` is 2 and whose amount is their sum. */
  lemma SameNameMerges(a: Line, b: Line)
    requires Key(a) == Key(b)
    ensures var items := AggregateIngredientsForShopping(Parsed([Day([Meal("A", 0, [a]), Meal("B", 0, [b])])])).value.items;
      |items| == 1 && items[0].usedIn == 2 && items[0].amount == Round(a.amount + b.amount, 1)
  {
    var plan := [Day([Meal("A", 0, [a]), Meal("B", 0, [b])])];
    assert MealLines(plan[0].meals[1..]) == [b];
    assert Lines(plan) == [a, b];
    assert [a, b][..1] == [a];
    assert Aggregate([a], KeepFirst) == [Fresh(a)];
    var e := Bump(Fresh(a), b, KeepFirst);
    assert Aggregate([a, b], KeepFirst) == [e];
    assert Map([e], PricedItem) == [PricedItem(e)];
    assert SortBy([PricedItem(e)], ItemName) == [PricedItem(e)];
  }

  /** A line of the grocery tool's list, which has no `used_in`. */
  datatype GroceryItem = GroceryItem(name: string, amount: real, unit: string, cost: real)

  function GroceryName(g: GroceryItem): string { g.name }

  function GroceryCost(g: GroceryItem): real { g.cost }

  datatype GroceryList = GroceryList(items: seq<GroceryItem>, totalItems: nat, totalCost: real)

  function PricedGroceryItem(e: Entry): GroceryItem {
    GroceryItem(Title(e.key), Round(e.total, 1), e.unit, EstimateIngredientCost(e.key, e.total).totalCost)
  }

  /** `aggregate_ingredients_for_shopping` of the grocery tool module. */
  function GroceryAggregateForShopping(input: Json<Plan>): (r: Result<GroceryList>)
    ensures input.Malformed? <==> r == Err(InvalidJson)
    ensures r.Ok? ==> SortedBy(r.value.items, GroceryName)
    ensures r.Ok? ==> r.value.totalItems == |r.value.items| == |Keys(Lines(input.value))|
  {
    match input
    case Malformed => Err(InvalidJson)
    case Parsed(plan) =>
      var priced := Map(Aggregate(Lines(plan), KeepFirst), PricedGroceryItem);
      AggregateIsExpectedPerKey(Lines(plan), KeepFirst);
      Ok(GroceryList(SortBy(priced, GroceryName), |priced|, Round(SumOf(priced, GroceryCost), 2)))
  }

  function DropUsedIn(it: Item): GroceryItem {
    GroceryItem(it.name, it.amount, it.unit, it.cost)
  }

  lemma {:induction false} SumOfDropUsedIn(xs: seq<Item>)
    ensures SumOf(Map(xs, DropUsedIn), GroceryCost) == SumOf(xs, ItemCost)
    decreases |xs|
  {
    if |xs| > 0 {
      SumOfDropUsedIn(xs[1..]);
    }
  }

  /** The grocery tool's list is the complete tool's list with `used_in`
      removed: same items in the same order, same totals. */
  lemma GroceryListDropsUsedIn(input: Json<Plan>)
    ensures var full := AggregateIngredientsForShopping(input);
      var bare := GroceryAggregateForShopping(input);
      full.Ok? <==> bare.Ok?
    ensures input.Parsed? ==>
      var full := AggregateIngredientsForShopping(input).value;
      var bare := GroceryAggregateForShopping(input).value;
      && bare.items == Map(full.items, DropUsedIn)
      && bare.totalItems == full.totalItems
      && bare.totalCost == full.totalCost
  {
    if input.Parsed? {
      var es := Aggregate(Lines(input.value), KeepFirst);
      var priced := Map(es, PricedItem);
      assert Map(es, PricedGroceryItem) == Map(priced, DropUsedIn);
      SortMap(priced, DropUsedIn, ItemName, GroceryName);
      SumOfDropUsedIn(priced);
    }
  }
}

=== FILE: sorting.dfy ===
/** Python's `sorted(xs, key=...)` on string keys, as an insertion sort. */
module Sorting {
  import opened Text

  /** Neighbouring elements are in key order. */
  predicate SortedBy<T>(xs: seq<T>, key: T -> string) {
    forall i :: 0 < i < |xs| ==> StrLe(key(xs[i - 1]), key(xs[i]))
  }

  function Insert<T>(x: T, xs: seq<T>, key: T -> string): (r: seq<T>)
    requires SortedBy(xs, key)
    ensures SortedBy(r, key)
    ensures multiset(r) == multiset(xs) + multiset{x}
    ensures |r| == |xs| + 1
    ensures r[0] == x || (|xs| > 0 && r[0] == xs[0])
    decreases |xs|
  {
    if |xs| == 0 then [x]
    else if StrLe(key(x), key(xs[0])) then [x] + xs
    else
      StrLeTotal(key(x), key(xs[0]));
      assert xs == [xs[0]] + xs[1..];
      [xs[0]] + Insert(x, xs[1..], key)
  }

  function SortBy<T>(xs: seq<T>, key: T -> string): (r: seq<T>)
    ensures SortedBy(r, key)
    ensures multiset(r) == multiset(xs)
    ensures |r| == |xs|
    decreases |xs|
  {
    if |xs| == 0 then []
    else
      assert xs == [xs[0]] + xs[1..];
      Insert(xs[0], SortBy(xs[1..], key), key)
  }

  /** Two permutations of each other have the same elements. */
  lemma SameMembers<T>(a: seq<T>, b: seq<T>)
    requires multiset(a) == multiset(b)
    ensures forall x :: x in a <==> x in b
  {
    forall x ensures x in a <==> x in b {
      assert x in a <==> x in multiset(a);
      assert x in b <==> x in multiset(b);
    }
  }

  /** `[f(x) for x in xs]` */
  function Map<A, B>(xs: seq<A>, f: A -> B): (r: seq<B>)
    ensures |r| == |xs|
    ensures forall i :: 0 <= i < |xs| ==> r[i] == f(xs[i])
    decreases |xs|
  {
    if |xs| == 0 then [] else [f(xs[0])] + Map(xs[1..], f)
  }

  lemma MapAppend<A, B>(a: seq<A>, b: seq<A>, f: A -> B)
    ensures Map(a + b, f) == Map(a, f) + Map(b, f)
  {
    var l := Map(a + b, f);
    var r := Map(a, f) + Map(b, f);
    assert |l| == |r|;
    forall i | 0 <= i < |l| ensures l[i] == r[i] {
      if i < |a| {
        assert (a + b)[i] == a[i];
      } else {
        assert (a + b)[i] == b[i - |a|];
      }
    }
  }

  lemma MapKeepsSorted<A, B>(xs: seq<A>, f: A -> B, ka: A -> string, kb: B -> string)
    requires SortedBy(xs, ka)
    requires forall a :: kb(f(a)) == ka(a)
    ensures SortedBy(Map(xs, f), kb)
  {
    var m := Map(xs, f);
    forall i | 0 < i < |m| ensures StrLe(kb(m[i - 1]), kb(m[i])) {
      assert kb(m[i - 1]) == ka(xs[i - 1]) && kb(m[i]) == ka(xs[i]);
    }
  }

  /** Sorting by a key commutes with a map that preserves that key. */
  lemma {:induction false} InsertMap<A, B>(x: A, xs: seq<A>, f: A -> B, ka: A -> string, kb: B -> string)
    requires SortedBy(xs, ka)
    requires forall a :: kb(f(a)) == ka(a)
    ensures SortedBy(Map(xs, f), kb)
    ensures Insert(f(x), Map(xs, f), kb) == Map(Insert(x, xs, ka), f)
    decreases |xs|
  {
    MapKeepsSorted(xs, f, ka, kb);
    var m := Map(xs, f);
    if |xs| == 0 {
      assert Insert(x, xs, ka) == [x];
      assert Insert(f(x), m, kb) == [f(x)];
    } else {
      assert kb(f(x)) == ka(x) && kb(m[0]) == ka(xs[0]);
      if StrLe(ka(x), ka(xs[0])) {
        assert ([x] + xs)[1..] == xs;
        assert Map([x] + xs, f) == [f(x)] + m;
      } else {
        assert SortedBy(xs[1..], ka);
        InsertMap(x, xs[1..], f, ka, kb);
        var rest := Insert(x, xs[1..], ka);
        assert ([xs[0]] + rest)[1..] == rest;
        assert Map([xs[0]] + rest, f) == [f(xs[0])] + Map(rest, f);
      }
    }
  }

  lemma {:induction false} SortMap<A, B>(xs: seq<A>, f: A -> B, ka: A -> string, kb: B -> string)
    requires forall a :: kb(f(a)) == ka(a)
    ensures SortBy(Map(xs, f), kb) == Map(SortBy(xs, ka), f)
    decreases |xs|
  {
    if |xs| > 0 {
      SortMap(xs[1..], f, ka, kb);
      InsertMap(xs[0], SortBy(xs[1..], ka), f, ka, kb);
    }
  }
}

=== FILE: text.dfy ===
/** ASCII models of the Python string operations the tools use: `lower`,
    `title`, `strip`, `split(",")`, substring `in` and `<` on strings. */
module Text {

  predicate IsUpper(c: char) { 'A' <= c <= 'Z' }

  predicate IsLowerLetter(c: char) { 'a' <= c <= 'z' }

  /** A character with case, i.e. a letter. */
  predicate IsCased(c: char) { IsUpper(c) || IsLowerLetter(c) }

  /** Python's whitespace among the ASCII characters: tab to carriage return,
      the four separator controls 0x1c..0x1f, and the space. */
  predicate IsSpace(c: char) {
    c == ' ' || 9 <= c as int <= 13 || 28 <= c as int <= 31
  }

  function LowerChar(c: char): char {
    if IsUpper(c) then (c as int + 32) as char else c
  }

  function UpperChar(c: char): char {
    if IsLowerLetter(c) then (c as int - 32) as char else c
  }

  /** A string with no upper-case letter: the image of `Lower`. */
  predicate IsLowered(s: string) {
    forall i :: 0 <= i < |s| ==> !IsUpper(s[i])
  }

  /** `str.lower()` */
  function Lower(s: string): (r: string)
    ensures |r| == |s|
    ensures IsLowered(r)
    ensures forall i :: 0 <= i < |s| ==> r[i] == LowerChar(s[i])
  {
    seq(|s|, i requires 0 <= i < |s| => LowerChar(s[i]))
  }

  lemma LowerIdempotent(s: string)
    ensures Lower(Lower(s)) == Lower(s)
  {
  }

  /** Lower-casing leaves a string without capitals untouched. */
  lemma LowerOfLowered(s: string)
    requires IsLowered(s)
    ensures Lower(s) == s
  {
  }

  /** `str.title()`: a cased character is upper-cased when the character before
      it is not cased, and lower-cased otherwise. */
  function TitleFrom(s: string, prevCased: bool): string
    decreases |s|
  {
    if |s| == 0 then ""
    else
      var c := if prevCased then LowerChar(s[0]) else UpperChar(s[0]);
      [c] + TitleFrom(s[1..], IsCased(c))
  }

  function Title(s: string): string {
    TitleFrom(s, false)
  }

  /** Title-casing changes only the case of each character. */
  lemma {:induction false} TitleFromKeepsLetters(s: string, prevCased: bool)
    ensures |TitleFrom(s, prevCased)| == |s|
    ensures forall i :: 0 <= i < |s| ==> LowerChar(TitleFrom(s, prevCased)[i]) == LowerChar(s[i])
    decreases |s|
  {
    if |s| > 0 {
      var c := if prevCased then LowerChar(s[0]) else UpperChar(s[0]);
      TitleFromKeepsLetters(s[1..], IsCased(c));
      var t := TitleFrom(s, prevCased);
      forall i | 1 <= i < |s| ensures LowerChar(t[i]) == LowerChar(s[i]) {
        assert t[i] == TitleFrom(s[1..], IsCased(c))[i - 1];
      }
    }
  }

  lemma LowerOfTitleFrom(s: string, prevCased: bool)
    ensures Lower(TitleFrom(s, prevCased)) == Lower(s)
  {
    TitleFromKeepsLetters(s, prevCased);
  }

  lemma {:induction false} TitleFromOfLower(s: string, prevCased: bool)
    ensures TitleFrom(Lower(s), prevCased) == TitleFrom(s, prevCased)
    decreases |s|
  {
    if |s| > 0 {
      var c := if prevCased then LowerChar(s[0]) else UpperChar(s[0]);
      assert Lower(s)[1..] == Lower(s[1..]);
      TitleFromOfLower(s[1..], IsCased(c));
    }
  }

  /** Two names title-case to the same text exactly when they are equal
      ignoring case; so distinct lower-cased keys give distinct titles. */
  lemma TitleSameIffLowerSame(a: string, b: string)
    ensures Title(a) == Title(b) <==> Lower(a) == Lower(b)
  {
    LowerOfTitleFrom(a, false);
    LowerOfTitleFrom(b, false);
    TitleFromOfLower(a, false);
    TitleFromOfLower(b, false);
  }

  /** `str.lstrip()` / `str.rstrip()` / `str.strip()` with no argument. */
  function TrimLeft(s: string): (r: string)
    ensures |r| <= |s| && r == s[|s| - |r|..]
    ensures |r| > 0 ==> !IsSpace(r[0])
    ensures forall i :: 0 <= i < |s| - |r| ==> IsSpace(s[i])
    decreases |s|
  {
    if |s| > 0 && IsSpace(s[0]) then TrimLeft(s[1..]) else s
  }

  function TrimRight(s: string): (r: string)
    ensures |r| <= |s| && r == s[..|r|]
    ensures |r| > 0 ==> !IsSpace(r[|r| - 1])
    ensures forall i :: |r| <= i < |s| ==> IsSpace(s[i])
    decreases |s|
  {
    if |s| > 0 && IsSpace(s[|s| - 1]) then TrimRight(s[..|s| - 1]) else s
  }

  function Strip(s: string): string {
    TrimRight(TrimLeft(s))
  }

  /** `strip` keeps a contiguous middle part without surrounding whitespace,
      drops only whitespace, and is empty exactly for an all-blank string. */
  lemma StripSpec(s: string)
    ensures var r := Strip(s);
      && (exists i :: OccursAt(s, r, i))
      && (|r| > 0 ==> !IsSpace(r[0]) && !IsSpace(r[|r| - 1]))
      && (r == "" <==> forall i :: 0 <= i < |s| ==> IsSpace(s[i]))
  {
    var l := TrimLeft(s);
    var r := TrimRight(l);
    var i := |s| - |l|;
    assert Strip(s) == r;
    if r == "" {
      // a non-empty left-trimmed string starts with a non-space, which the right trim would keep
      assert |l| == 0;
    }
    assert OccursAt(s, r, i);
  }

  /** `s.split(sep)` with an explicit separator: never empty, and the pieces
      hold no separator. */
  function Split(s: string, sep: char): (parts: seq<string>)
    ensures |parts| >= 1
    ensures forall p :: p in parts ==> sep !in p
    decreases |s|
  {
    if |s| == 0 then [""]
    else
      var rest := Split(s[1..], sep);
      if s[0] == sep then [""] + rest
      else [[s[0]] + rest[0]] + rest[1..]
  }

  /** `sep.join(parts)` */
  function Join(parts: seq<string>, sep: char): string
    decreases |parts|
  {
    if |parts| == 0 then ""
    else if |parts| == 1 then parts[0]
    else parts[0] + [sep] + Join(parts[1..], sep)
  }

  /** Joining the pieces back with the separator gives the original text. */
  lemma {:induction false} JoinSplit(s: string, sep: char)
    ensures Join(Split(s, sep), sep) == s
    decreases |s|
  {
    if |s| > 0 {
      var rest := Split(s[1..], sep);
      JoinSplit(s[1..], sep);
      if s[0] == sep {
        assert Split(s, sep)[1..] == rest;
      } else {
        var parts := Split(s, sep);
        assert parts[1..] == rest[1..];
        if |rest| == 1 {
          assert Join(parts, sep) == [s[0]] + rest[0];
        } else {
          assert Join(rest, sep) == rest[0] + [sep] + Join(rest[1..], sep);
        }
      }
    }
  }

  /** Splitting a join of separator-free pieces recovers the pieces. */
  lemma {:induction false} SplitJoin(parts: seq<string>, sep: char)
    requires |parts| >= 1
    requires forall p :: p in parts ==> sep !in p
    ensures Split(Join(parts, sep), sep) == parts
    decreases |parts|, |parts[0]|
  {
    if |parts[0]| > 0 {
      var tail := [parts[0][1..]] + parts[1..];
      assert forall p :: p in tail ==> sep !in p by {
        forall p | p in tail ensures sep !in p {
          if p == parts[0][1..] {
            assert parts[0] in parts;
            forall k | 0 <= k < |p| ensures p[k] != sep {
              assert p[k] == parts[0][k + 1];
            }
          } else {
            assert p in parts;
          }
        }
      }
      SplitJoin(tail, sep);
      var j := Join(parts, sep);
      if |parts| == 1 {
        assert j[1..] == Join(tail, sep);
      } else {
        assert Join(tail, sep) == parts[0][1..] + [sep] + Join(parts[1..], sep);
        assert j[1..] == Join(tail, sep);
      }
      assert parts[0] in parts;
      assert j[0] == parts[0][0] && j[0] != sep;
      assert [parts[0][0]] + parts[0][1..] == parts[0];
    } else if |parts| > 1 {
      SplitJoin(parts[1..], sep);
      var j := Join(parts, sep);
      assert j == [sep] + Join(parts[1..], sep);
      assert j[1..] == Join(parts[1..], sep);
    }
  }

  /** The pieces of a split that are not blank, stripped: the Python idiom
      `[x.strip() for x in s.split(",") if x.strip()]`. */
  function NonBlankStripped(parts: seq<string>): (r: seq<string>)
    decreases |parts|
  {
    if |parts| == 0 then []
    else
      var head := Strip(parts[0]);
      (if head != "" then [head] else []) + NonBlankStripped(parts[1..])
  }

  function CommaList(s: string): seq<string> {
    NonBlankStripped(Split(s, ','))
  }

  /** Each kept entry is the stripped form of some piece and is neither empty
      nor padded; each piece that is not blank is kept. */
  lemma NonBlankStrippedSpec(parts: seq<string>)
    ensures forall x :: x in NonBlankStripped(parts) ==>
      x != "" && Strip(x) == x && exists p :: p in parts && x == Strip(p)
    ensures forall p :: p in parts && Strip(p) != "" ==> Strip(p) in NonBlankStripped(parts)
  {
    NonBlankStrippedSound(parts);
    NonBlankStrippedComplete(parts);
    forall x | x in NonBlankStripped(parts)
      ensures exists p :: p in parts && x == Strip(p)
    {
      var i :| 0 <= i < |parts| && x == Strip(parts[i]);
      assert parts[i] in parts;
    }
  }

  /** The kept entries, each with the index of the piece it comes from. */
  lemma NonBlankStrippedSound(parts: seq<string>)
    ensures forall x :: x in NonBlankStripped(parts) ==>
      x != "" && Strip(x) == x && exists i :: 0 <= i < |parts| && x == Strip(parts[i])
  {
    NonBlankStrippedClean(parts);
    NonBlankStrippedOrigin(parts);
  }

  lemma {:induction false} NonBlankStrippedClean(parts: seq<string>)
    ensures forall x :: x in NonBlankStripped(parts) ==> x != "" && Strip(x) == x
    decreases |parts|
  {
    if |parts| > 0 {
      var rest := NonBlankStripped(parts[1..]);
      NonBlankStrippedClean(parts[1..]);
      var head := Strip(parts[0]);
      if head != "" {
        StripOfStripped(parts[0]);
        assert NonBlankStripped(parts) == [head] + rest;
      } else {
        assert NonBlankStripped(parts) == rest;
      }
    }
  }

  lemma {:induction false} NonBlankStrippedOrigin(parts: seq<string>)
    ensures forall x :: x in NonBlankStripped(parts) ==>
      exists i :: 0 <= i < |parts| && x == Strip(parts[i])
    decreases |parts|
  {
    if |parts| > 0 {
      NonBlankStrippedOrigin(parts[1..]);
      forall x | x in NonBlankStripped(parts)
        ensures exists i :: 0 <= i < |parts| && x == Strip(parts[i])
      {
        if x != Strip(parts[0]) {
          assert x in NonBlankStripped(parts[1..]);
          var j :| 0 <= j < |parts[1..]| && x == Strip(parts[1..][j]);
          assert x == Strip(parts[j + 1]);
        }
      }
    }
  }

  lemma {:induction false} NonBlankStrippedComplete(parts: seq<string>)
    ensures forall i :: 0 <= i < |parts| && Strip(parts[i]) != "" ==>
      Strip(parts[i]) in NonBlankStripped(parts)
    decreases |parts|
  {
    if |parts| > 0 {
      NonBlankStrippedComplete(parts[1..]);
      forall i | 1 <= i < |parts| && Strip(parts[i]) != ""
        ensures Strip(parts[i]) in NonBlankStripped(parts[1..])
      {
        assert parts[i] == parts[1..][i - 1];
      }
    }
  }

  lemma StripOfStripped(s: string)
    requires Strip(s) != ""
    ensures Strip(Strip(s)) == Strip(s)
  {
    var r := Strip(s);
    StripSpec(s);
    assert TrimLeft(r) == r;
    assert TrimRight(r) == r;
  }

  /** An empty option string yields no entries. */
  lemma CommaListOfEmpty()
    ensures CommaList("") == []
  {
    assert Split("", ',') == [""];
    assert Strip("") == "";
  }

  /** `needle in hay` for strings, scanning start positions left to right. */
  function Contains(hay: string, needle: string): bool
    decreases |hay|
  {
    (|needle| <= |hay| && hay[..|needle|] == needle)
    || (|hay| > 0 && Contains(hay[1..], needle))
  }

  /** Independent statement of the substring relation. */
  ghost predicate OccursAt(hay: string, needle: string, i: int) {
    0 <= i && i + |needle| <= |hay| && hay[i..i + |needle|] == needle
  }

  lemma {:induction false} ContainsIffOccurs(hay: string, needle: string)
    ensures Contains(hay, needle) <==> exists i :: OccursAt(hay, needle, i)
    decreases |hay|
  {
    if |hay| > 0 {
      ContainsIffOccurs(hay[1..], needle);
      if Contains(hay[1..], needle) {
        var i :| OccursAt(hay[1..], needle, i);
        assert hay[i + 1..i + 1 + |needle|] == hay[1..][i..i + |needle|];
        assert OccursAt(hay, needle, i + 1);
      }
      if |needle| <= |hay| && hay[..|needle|] == needle {
        assert OccursAt(hay, needle, 0);
      }
      if i :| OccursAt(hay, needle, i) {
        if i > 0 {
          assert hay[1..][i - 1..i - 1 + |needle|] == hay[i..i + |needle|];
          assert OccursAt(hay[1..], needle, i - 1);
        } else {
          assert hay[..|needle|] == hay[i..i + |needle|];
        }
      }
    } else {
      if i :| OccursAt(hay, needle, i) {
        assert i == 0 && |needle| == 0;
      }
      if Contains(hay, needle) {
        assert OccursAt(hay, needle, 0);
      }
    }
  }

  /** Python's `<=` on strings: code point by code point, a proper prefix first. */
  predicate StrLe(a: string, b: string)
    decreases |a|
  {
    |a| == 0 || (|b| > 0 && (a[0] < b[0] || (a[0] == b[0] && StrLe(a[1..], b[1..]))))
  }

  lemma {:induction false} StrLeTotal(a: string, b: string)
    ensures StrLe(a, b) || StrLe(b, a)
    decreases |a|
  {
    if |a| > 0 && |b| > 0 && a[0] == b[0] {
      StrLeTotal(a[1..], b[1..]);
    }
  }

  lemma {:induction false} StrLeAntisymmetric(a: string, b: string)
    requires StrLe(a, b) && StrLe(b, a)
    ensures a == b
    decreases |a|
  {
    if |a| > 0 {
      StrLeAntisymmetric(a[1..], b[1..]);
      assert a == [a[0]] + a[1..] && b == [b[0]] + b[1..];
    }
  }

  lemma {:induction false} StrLeTransitive(a: string, b: string, c: string)
    requires StrLe(a, b) && StrLe(b, c)
    ensures StrLe(a, c)
    decreases |a|
  {
    if |a| > 0 && a[0] == b[0] && b[0] == c[0] {
      StrLeTransitive(a[1..], b[1..], c[1..]);
    }
  }
}
